=== FILE: README.md ===
# work-location-log in Dafny

A model of the core of work-location-log, a small Python tool that records
whether each work day was spent at the office or working remotely. The
records live in an SQLite database with three tables:

- Week: one row per ISO week, keyed by a week number "YYYY-WW".
- Location: the allowed locations.
- WorkDay: one row per date, naming its week and its location.

The model covers four parts of the program:

- **db_setup.py.** It creates the tables and fills Week from
  `generate_week_data`. It fills Location with "office" and "remote", and
  fills WorkDay from a CSV file. A work day's week number is derived from
  its date the same way the Week rows are numbered.
- **database.py.** The `Database` queries: `get_recent_days`,
  `get_work_day` and `set_location`.
- **py_html.py.** `PyHTML`, which builds an HTML page as a list of text
  fragments and writes them out.
- **Python's `datetime.date`.** The parts the setup code relies on:
  construction, `timedelta` addition, `isocalendar`, `fromisocalendar` and
  `isoformat`.

Modules:

| file | module | what it holds |
|---|---|---|
| wrappers.dfy | `Wrappers` | `Option` and `Result` |
| text.dfy | `Text` | SQLite's TEXT order (BINARY collation, code-point order) as `LexLess`; `str` of naturals; zero-fill; `"\n".join` and its inverse |
| calendar.dfy | `Calendar` | The proleptic Gregorian calendar as `datetime.date` computes it, including CPython's `isocalendar` steps. The contract of `IsoCalendar` is the ISO 8601 week date (weeks start on Monday; week 1 holds the year's first Thursday). |
| weeks.dfy | `WeekData`, `WeekDataProperties` | `generate_week_data`, and what its weeks satisfy |
| store.dfy | `Store` | The three tables as maps from primary key to row, the foreign keys, INSERT OR IGNORE, and the three fill functions |
| setup.dfy | `Setup` | The script `db_setup.py` as a whole |
| database.dfy | `Database` | The `Database` class |
| html.dfy | `PyHtml` | The `PyHTML` class |

How the program's behaviour is represented:

- **Exceptions** are `Failure` values. `DateError` is ValueError or
  OverflowError. `DbError` is a date error raised while preparing rows, or
  SQLite's IntegrityError.
- **Database updates** return the new database or the exception.
- **INSERT OR IGNORE** is modelled as `executemany` does it. A row whose
  primary key is already present is skipped, whether it was stored before
  or by an earlier row of the same batch. A new row whose foreign key has no
  parent raises IntegrityError, because OR IGNORE does not cover foreign
  keys. The fill functions commit only after the whole batch, so a failing
  fill leaves nothing of the batch behind.
- **The script** runs its four steps on separate connections, each committing
  its own work. `Setup.SetUpDatabase` returns the saved database together
  with the exception that ended the run, if any.
- **UPDATE** that matches no row does nothing and checks nothing.
  `set_location` with an unknown date is therefore a no-op even for an
  unknown location.
- **`LIMIT`** with a negative count means no limit, as SQLite reads it. The
  count is bound as a parameter, so it must fit a 64-bit INTEGER.
- **Week numbers** are built with `str(iso_year)`, which is not zero-padded.
  So they sort as text in calendar order only for four-digit years, which is
  what `generate_week_data` asks of its callers. `WeekData.ShortYearSortsLate`
  shows what goes wrong below year 1000. The ordering lemmas require years of
  at least 1000. Distinctness needs no such bound: the week part has a fixed
  width after the dash, so distinct weeks get distinct numbers in every year
  (`WeekData.WeekIdInjective`).
- **The seed import** inserts the whole CSV file with one `executemany` of
  INSERT OR IGNORE. The first row for a date wins, and a foreign-key failure
  discards the whole file.

Where the program's comments and its code disagree, the model follows the
code:

- `generate_week_data`'s docstring calls `week_start` and `week_end` Python
  dates, but the code stores `isoformat()` strings.
- `fill_week_table`'s docstring mentions the years 2023 - 2025, but the
  script passes 2023 and 2027, which gives the ISO years 2023 to 2026.

## Model

| member | source | states |
|---|---|---|
| Calendar.MakeDate | db_setup.py:135 | `date(year, month, day)` succeeds exactly for a real calendar day in years 1..9999, and returns that day. Otherwise it raises OverflowError exactly when a field lies outside the C `int` range, and ValueError when all fit |
| Calendar.AddDays | db_setup.py:95 | `d + timedelta(days=n)` exists exactly when day number `Ordinal(d) + n` is no later than 9999-12-31, and then is the valid date that many days on |
| Calendar.IsoCalendar | db_setup.py:89-91 | `isocalendar()` returns the ISO 8601 week date of the day: its ISO year is the one whose week 1 (Monday of the week holding the first Thursday) starts on or before it and whose successor's does not, week and weekday follow by counting whole weeks from there, and the year lies in 1..9999 |
| Calendar.WeekDateUnique | db_setup.py:89-91 | A day has exactly one ISO week date |
| Calendar.FirstIsoMonday | db_setup.py:86 | `date.fromisocalendar(year, 1, 1)` succeeds exactly for years 1..9999, and is the Monday that starts ISO week 1 of that year |
| Calendar.FirstIsoMondayRoundTrip | db_setup.py:86 | `isocalendar()` of `fromisocalendar(year, 1, 1)` is `(year, 1, 1)` again |
| Calendar.IsoFormatOrder | db_setup.py:142 | `isoformat()` strings compare as TEXT exactly as the dates compare in time, and distinct dates give distinct strings |
| WeekData.WeekIdFormat | db_setup.py:90-93 | For a four-digit ISO year and a week 1..53, the week number is exactly the four year digits, a dash and two week digits |
| WeekData.WeekIdOrder | db_setup.py:90-93 | For four-digit years, week numbers compare as TEXT exactly as (year, week) pairs compare, and are equal only for the same week |
| WeekData.WeekIdInjective | db_setup.py:90-93 | In every year, two week numbers with weeks 1..53 are equal exactly when their ISO years and weeks are |
| WeekData.ShortYearSortsLate | db_setup.py:90-93 | Below year 1000 the order breaks: week 1 of 1000 sorts before week 52 of 999 |
| WeekData.WeeksFromSpec | db_setup.py:87-99 | The loop, started on a Monday, fails exactly when `end_year` is past 9999. Otherwise it emits consecutive weeks, each starting on a Monday, ending six days later and numbered from its Monday, up to ISO week 1 of `end_year` |
| WeekData.GenerateWeekData | db_setup.py:73-100 | `generate_week_data` succeeds exactly when `start_year` is in 1..9999 and `end_year <= 9999`. It raises ValueError exactly when `start_year` is out of range and OverflowError otherwise. On success its weeks run from the Monday of week 1 of `start_year` |
| WeekDataProperties.Generated | db_setup.py:73-100 | On success the number of weeks is the distance in days from week 1 of `start_year` to week 1 of `end_year`, divided by 7 (none when `start_year >= end_year`) |
| WeekDataProperties.EmptyUnlessStartBeforeEnd | db_setup.py:86-89 | When `start_year >= end_year` the loop guard fails at once and the list is empty |
| WeekDataProperties.FirstWeek | db_setup.py:86-93 | The first week starts on `fromisocalendar(start_year, 1, 1)` and is numbered "{start_year}-01" |
| WeekDataProperties.WeeksContiguous | db_setup.py:94-99 | Each week ends six days after it starts, and the next starts the day after: no gap, no overlap |
| WeekDataProperties.WeeksSpan | db_setup.py:75-77 | The weeks cover exactly the ISO years `start_year .. end_year - 1`: the last week ends the day before week 1 of `end_year` |
| WeekDataProperties.WeeksInIsoYears | db_setup.py:89 | Every week lies in an ISO year from `start_year` up to, not including, `end_year` |
| WeekDataProperties.WeekNumbersIncrease | db_setup.py:90-93 | For four-digit years the week numbers strictly increase as TEXT, so no two weeks share a number |
| WeekDataProperties.WeekNumbersDistinct | db_setup.py:89-97 | Whatever the years, no two generated weeks share a week number |
| WeekDataProperties.ContainingWeek | db_setup.py:137-140 | For a day in the ISO years generated, the week found by whole weeks from the first Monday holds the day between its start and end, and its number equals the number `fill_workday_table` derives from the day |
| Store.CreateTables | db_setup.py:6-49 | A new database has empty tables and satisfies both foreign keys; an existing database is returned as it was, rows included (IF NOT EXISTS) |
| Store.InsertOrIgnore | db_setup.py:63-69 | After INSERT OR IGNORE succeeds, the table's keys are exactly its old keys plus the batch's keys |
| Store.InsertOrIgnoreFails | db_setup.py:152-158 | The batch raises IntegrityError exactly when some row it would store (first with its key, key not yet in the table) fails its foreign-key test |
| Store.InsertOrIgnoreKeeps | db_setup.py:63-69 | Rows present before the batch keep their values |
| Store.InsertOrIgnoreFirstWins | db_setup.py:63-69 | A new key is stored with the values of the first row of the batch that carries it |
| Store.InsertOrIgnoreParents | db_setup.py:44-45 | If every row of the table passed the foreign-key test before, every row does after |
| Store.InsertOrIgnoreAll | db_setup.py:63-69 | A relation between key and row that holds of every old row and every batch row holds of every row afterwards |
| Store.InsertOrIgnorePresent | db_setup.py:63-69 | A batch whose keys are all present already changes nothing, whatever its values |
| Store.FillWeekTable | db_setup.py:51-71 | `fill_week_table` succeeds exactly when `generate_week_data` does, raises its ValueError or OverflowError otherwise, and leaves Location and WorkDay unchanged |
| Store.FillWeekTableRows | db_setup.py:51-71 | Afterwards the Week keys are the old keys plus the generated week numbers, and every old row is unchanged |
| Store.FillWeekTableNewWeek | db_setup.py:90-96 | Each week whose number was not stored yet is stored with its own start and end in ISO format |
| Store.FillWeekTableIdempotent | db_setup.py:63-69 | Running `fill_week_table` again with the same years changes nothing |
| Store.FillWeekTableKeepsForeignKeys | db_setup.py:44 | Filling Week never breaks a WorkDay foreign key |
| Store.FillLocationTable | db_setup.py:102-121 | Afterwards "office" and "remote" are Location rows, nothing else was added, old locations remain, and the other tables are unchanged |
| Store.FillLocationTableIdempotent | db_setup.py:113-119 | Running `fill_location_table` again changes nothing, and it keeps the foreign keys |
| Store.WorkDayTuples | db_setup.py:128-145 | Building the rows fails only with the exception `date` raises on some CSV row, and otherwise gives one tuple per CSV row |
| Store.WorkDayTuplesSpec | db_setup.py:131-145 | The rows are built exactly when every CSV row names a real date, and then row i is (ISO date, week number of the date, location) of CSV row i. Otherwise the exception is the one `date` raises on the first CSV row that is not a date |
| Store.FillWorkDayTable | db_setup.py:147-160 | `fill_workday_table` leaves Week and Location unchanged |
| Store.FillWorkDayTableFails | db_setup.py:123-160 | It fails with a date error exactly when some CSV row is not a date, and that error is the one `date` raises on the first such row. It fails with IntegrityError exactly when the rows are built and some row it would store has a week number or location without a parent row |
| Store.FillWorkDayTableKeeps | db_setup.py:152-158 | A successful fill keeps every WorkDay row it found and keeps the foreign keys |
| Store.FillWorkDayTableNewRow | db_setup.py:135-145 | A date the file adds is stored under its ISO format with its ISO week number and the location of its first row in the file |
| Store.FillWorkDayTableIdempotent | db_setup.py:152-158 | Running `fill_workday_table` again on the same file changes nothing |
| Setup.SetUpDatabase | db_setup.py:162-166 | Each step commits on its own, so the saved database keeps every row it had. Bad years stop the script at `fill_week_table` with only the tables created. Valid years save both locations even when `fill_workday_table` then raises. A run that raises saves no WorkDay row from the file |
| Setup.WeekOfDay | db_setup.py:137-140 | For a day in the ISO years of the Week table, the derived week number is a Week row, and that row's `week_start` and `week_end` bracket the day's ISO date in TEXT order |
| Setup.FillFitting | db_setup.py:151-158 | If every tuple has its parent rows and lies within its week, the fill succeeds. It then stores every date and keeps both the foreign keys and every day within its week |
| Setup.LogsEveryDay | db_setup.py:162-166 | On a new database, with a start year in 1..9999 and a file of real dates in those ISO years at "office" or "remote", the script succeeds. Every foreign key holds, every date is stored, and every stored day lies within the week its row names |
| Setup.SetupLogsEveryDay | db_setup.py:162-166 | The script as written, with years 2023 and 2027, logs every such day of ISO years 2023 to 2026 |
| Database.LimitOf | database.py:25 | `LIMIT n` lets through `n` rows, or all of them when there are fewer or `n` is negative; never more than there are |
| Database.Latest | database.py:24 | The latest of a non-empty set of dates in TEXT order is one of them and above all others |
| Database.GetRecentDays | database.py:10-28 | `get_recent_days(n)` raises OverflowError exactly when `n` does not fit SQLite's 64-bit INTEGER, since the count is a bound parameter. Otherwise it returns `LIMIT n` rows. Each is a WorkDay date with its location. They are strictly newest first, and every date left out is older than every date listed |
| Database.GetRecentDaysDefault | database.py:10 | `get_recent_days()` without an argument gives the fifteen newest days, or all of them when there are fewer, with the same guarantees |
| Database.RecentDaysDetermined | database.py:20-28 | Those conditions fix the answer: two results meeting them are the same list |
| Database.GetWorkDay | database.py:54-71 | `get_work_day(d)` returns a row exactly when `d` is a WorkDay date. The row is `d` with the week number and location stored for it |
| Database.SetLocation | database.py:30-52 | `set_location` raises IntegrityError exactly when the date is present and the location is not a Location row. Otherwise Week, Location and the set of dates are unchanged |
| Database.SetLocationReadBack | database.py:30-37 | After a successful update, `get_work_day` reads the new location with the week number unchanged, and every other date (and an absent one) reads as before |
| Database.SetLocationKeepsForeignKeys | database.py:36 | An update never breaks a foreign key |
| Database.SetSameLocation | test_database.py:40-47 | Setting a day to the location it has changes nothing |
| Database.SetLocationUndo | test_database.py:49-64 | Setting a new location and then the original one restores the database |
| Database.SetLocationRejected | test_database.py:66-80 | An unknown location raises IntegrityError, and setting the original location afterwards finds the database unchanged |
| Database.SetLocationIdempotent | database.py:38-46 | Repeating an update changes nothing more |
| PyHtml.New | py_html.py:2-18 | A new page has the shape head, "<body>\n", "</body>\n</html>", with an empty body. Its head is the source's head text with the given stylesheet, or classless.css when none is given |
| PyHtml.InsertBeforeLast | py_html.py:21 | `list.insert(-1, x)` adds one entry, just before the last one, and leaves the others in place |
| PyHtml.Add | py_html.py:20-30 | Inserting a fragment keeps the page's shape and head and appends the fragment to the body |
| PyHtml.ElementMethodsAppend | py_html.py:20-30 | `h1`, `h2`, `h3` and `p` each append `<tag>content</tag>` to the body, keeping earlier fragments and the head |
| PyHtml.ElementContent | py_html.py:20-30 | The content can be read back from an element |
| PyHtml.ElementOneLine | py_html.py:37 | An element contains a line break only if its tag or content does |
| PyHtml.Table | py_html.py:32-45 | `table(headers, rows)` keeps the page's shape and head and appends one fragment to the body: the table's lines joined by line breaks |
| PyHtml.RowLines | py_html.py:35-38 | A table row has one line per cell plus its `<tr>` and `</tr>` lines |
| PyHtml.TableLineCount | py_html.py:32-45 | The table has 4 + headers + 2 per data row + one per cell lines |
| PyHtml.TableRoundTrip | py_html.py:32-45 | When no header or cell holds a line break, splitting the table's fragment at line breaks gives back exactly the lines of `tbl` |
| PyHtml.RenderFrame | py_html.py:47-55 | The rendered text starts with the head and "<body>\n" and ends with "</body>\n</html>" |

## Left out

- The views and reports (view_*.py, recent_days_view.py, daily_input.py, ytd_html_report.py, work_location.py): user interface and file output around the modelled core.
- Database methods those views call but database.py does not define (a weekly summary, a year-to-date average, a new work day): there is no code to model.
- `Database.__init__` and `close_connection`: connection handling. The tests construct `Database` with a path and call `close()`, neither of which database.py defines.
- The SQLite file, `connect` and `commit`. Each database operation maps one database value to the next, and a failed statement leaves its input unchanged.
- Reading Data/location.csv and the `int()` conversions: a CSV row is given with its three numbers already parsed. A file with a non-numeric field, which raises ValueError before any date is built, is not modelled.
- The `notes` column of WorkDay: no modelled operation reads or writes it.
- The DatabaseError branch of `set_location` other than IntegrityError: with the tables as created, only a foreign-key failure can arise.
- The print statements in `set_location`'s error path: output only.
- `render`'s file: `Render` gives the text `writelines` would write.
- PyHtml.Table: the cells of `rows` are given as text. `str()` of arbitrary Python values is not modelled.
- WeekData.WeekIdOrder, WeekDataProperties.WeekNumbersIncrease: the TEXT ordering of week numbers is stated only for ISO years of at least 1000, because `str(iso_year)` is not padded below four digits. This matches the "Four digit year" that `generate_week_data` asks for (db_setup.py:78, 81).
- Setup.LogsEveryDay: stated for a new database only. On an existing database the IF NOT EXISTS tables keep their rows and the same lemmas of `Store` apply.

=== FILE: calendar.dfy ===
/** The proleptic Gregorian calendar as Python's `datetime.date` implements
    it: dates are (year, month, day) triples in years 1..9999, day 1 is
    0001-01-01, and the ISO 8601 week date (ISO 8601:2004 section 4.1.4:
    weeks start on Monday, week 1 of a year is the week holding its first
    Thursday) is computed by the same steps as `date.isocalendar`. */
module Calendar {
  import opened Wrappers
  import opened Text

  const MinYear := 1
  const MaxYear := 9999
  /** The ordinal of 9999-12-31, Python's `date.max.toordinal()`. */
  const MaxOrdinal := 3652059

  datatype Date = Date(year: int, month: int, day: int)

  /** An ISO week date: ISO year, week 1..53 and weekday 1 (Monday) .. 7. */
  datatype IsoDate = IsoDate(year: int, week: int, weekday: int)

  /** The exceptions `date` arithmetic and construction raise. */
  datatype DateError = ValueError | OverflowError

  predicate IsLeap(y: int) {
    y % 4 == 0 && (y % 100 != 0 || y % 400 == 0)
  }

  function DaysInMonth(y: int, m: int): int
    requires 1 <= m <= 12
  {
    if m == 2 then (if IsLeap(y) then 29 else 28)
    else if m == 4 || m == 6 || m == 9 || m == 11 then 30
    else 31
  }

  function DaysInYear(y: int): int {
    if IsLeap(y) then 366 else 365
  }

  /** Days in the year before the first day of month `m`. */
  function DaysBeforeMonth(y: int, m: int): int
    requires 1 <= m <= 12
  {
    [0, 31, 59, 90, 120, 151, 181, 212, 243, 273, 304, 334][m - 1]
      + (if m > 2 && IsLeap(y) then 1 else 0)
  }

  /** Days before 1 January of year `y`, counted from 0001-01-01. */
  function DaysBeforeYear(y: int): int {
    var p := y - 1;
    p * 365 + p / 4 - p / 100 + p / 400
  }

  /** Python's `_ymd2ord`: the day number of y-m-d, with 0001-01-01 as 1. */
  function YmdToOrdinal(y: int, m: int, d: int): int
    requires 1 <= m <= 12
  {
    DaysBeforeYear(y) + DaysBeforeMonth(y, m) + d
  }

  /** A real calendar day, whatever the year. */
  predicate WellShaped(d: Date) {
    1 <= d.month <= 12 && 1 <= d.day <= DaysInMonth(d.year, d.month)
  }

  /** A value Python's `date` can hold. */
  predicate Valid(d: Date) {
    MinYear <= d.year <= MaxYear && WellShaped(d)
  }

  function Ordinal(d: Date): int
    requires 1 <= d.month <= 12
  {
    YmdToOrdinal(d.year, d.month, d.day)
  }

  /** `date.weekday()`: 0 is Monday, 6 is Sunday. */
  function Weekday(d: Date): int
    requires 1 <= d.month <= 12
  {
    (Ordinal(d) + 6) % 7
  }

  /** The range of a C `int`, into which CPython's `date` constructor
      parses each of its three fields before it checks the date. */
  const CIntMin := -0x8000_0000
  const CIntMax := 0x7FFF_FFFF

  predicate FitsCInt(x: int) {
    CIntMin <= x <= CIntMax
  }

  /** Python's `date(year, month, day)` constructor: OverflowError when a
      field does not fit a C `int`, ValueError when the fields are no date. */
  function MakeDate(year: int, month: int, day: int): (r: Result<Date, DateError>)
    ensures r.Success? <==> Valid(Date(year, month, day))
    ensures r.Success? ==> r.value == Date(year, month, day)
    ensures r.Failure? ==>
      (r.error == OverflowError <==> !(FitsCInt(year) && FitsCInt(month) && FitsCInt(day)))
  {
    if !(FitsCInt(year) && FitsCInt(month) && FitsCInt(day)) then Failure(OverflowError)
    else if Valid(Date(year, month, day)) then Success(Date(year, month, day))
    else Failure(ValueError)
  }

  // ---------------------------------------------------------------------
  // Day counting

  lemma DaysBeforeYearStep(y: int)
    ensures DaysBeforeYear(y + 1) == DaysBeforeYear(y) + DaysInYear(y)
  {
    MultiplesStep4(y);
    MultiplesStep100(y);
    MultiplesStep400(y);
  }

  // How many multiples of 4, 100 and 400 the range up to `y` gains over
  // the range up to `y - 1`.
  lemma MultiplesStep4(y: int)
    ensures y / 4 - (y - 1) / 4 == if y % 4 == 0 then 1 else 0
  {
  }

  lemma MultiplesStep100(y: int)
    ensures y / 100 - (y - 1) / 100 == if y % 100 == 0 then 1 else 0
  {
  }

  lemma MultiplesStep400(y: int)
    ensures y / 400 - (y - 1) / 400 == if y % 400 == 0 then 1 else 0
  {
  }

  lemma {:induction false} DaysBeforeYearMonotone(y1: int, y2: int)
    requires y1 <= y2
    ensures DaysBeforeYear(y1) + 365 * (y2 - y1) <= DaysBeforeYear(y2)
    decreases y2 - y1
  {
    if y1 < y2 {
      DaysBeforeYearMonotone(y1, y2 - 1);
      DaysBeforeYearStep(y2 - 1);
    }
  }

  lemma DaysBeforeMonthStep(y: int, m: int)
    requires 1 <= m <= 12
    ensures m < 12 ==> DaysBeforeMonth(y, m + 1) == DaysBeforeMonth(y, m) + DaysInMonth(y, m)
    ensures m == 12 ==> DaysBeforeMonth(y, m) + DaysInMonth(y, m) == DaysInYear(y)
  {
  }

  lemma {:induction false} DaysBeforeMonthMonotone(y: int, m1: int, m2: int)
    requires 1 <= m1 < m2 <= 12
    ensures DaysBeforeMonth(y, m1) + DaysInMonth(y, m1) <= DaysBeforeMonth(y, m2)
    decreases m2 - m1
  {
    DaysBeforeMonthStep(y, m1);
    if m1 + 1 < m2 {
      DaysBeforeMonthMonotone(y, m1 + 1, m2);
    }
  }

  /** A well-shaped date lies within its year's run of ordinals. */
  lemma OrdinalWithinYear(d: Date)
    requires WellShaped(d)
    ensures YmdToOrdinal(d.year, 1, 1) <= Ordinal(d) < YmdToOrdinal(d.year, 1, 1) + DaysInYear(d.year)
  {
    DaysBeforeMonthStep(d.year, d.month);
    if d.month < 12 {
      DaysBeforeMonthMonotone(d.year, d.month, 12);
      DaysBeforeMonthStep(d.year, 12);
    }
  }

  /** Every date Python can hold has an ordinal in 1..MaxOrdinal. */
  lemma ValidOrdinalRange(d: Date)
    requires Valid(d)
    ensures 1 <= Ordinal(d) <= MaxOrdinal
  {
    OrdinalWithinYear(d);
    DaysBeforeYearMonotone(1, d.year);
    DaysBeforeYearMonotone(d.year + 1, 10000);
    DaysBeforeYearStep(d.year);
  }

  /** The calendar day after `d`, rolling over month and year ends. */
  function NextDay(d: Date): (r: Date)
    requires WellShaped(d)
    ensures WellShaped(r)
    ensures Ordinal(r) == Ordinal(d) + 1
  {
    DaysBeforeMonthStep(d.year, d.month);
    DaysBeforeYearStep(d.year);
    if d.day < DaysInMonth(d.year, d.month) then Date(d.year, d.month, d.day + 1)
    else if d.month < 12 then Date(d.year, d.month + 1, 1)
    else Date(d.year + 1, 1, 1)
  }

  /** `d + timedelta(days=n)`: OverflowError (here `None`) when the result
      would pass 9999-12-31. */
  function AddDays(d: Date, n: nat): (r: Option<Date>)
    requires Valid(d)
    ensures r.Some? <==> Ordinal(d) + n <= MaxOrdinal
    ensures r.Some? ==> Valid(r.value) && Ordinal(r.value) == Ordinal(d) + n
    decreases n
  {
    ValidOrdinalRange(d);
    if n == 0 then Some(d)
    else
      var next := NextDay(d);
      if next.year > MaxYear then None
      else
        ValidOrdinalRange(next);
        AddDays(next, n - 1)
  }

  /** Calendar order on dates: by year, then month, then day. */
  predicate Before(a: Date, b: Date) {
    a.year < b.year
    || (a.year == b.year && a.month < b.month)
    || (a.year == b.year && a.month == b.month && a.day < b.day)
  }

  lemma BeforeIncreasesOrdinal(a: Date, b: Date)
    requires WellShaped(a) && WellShaped(b) && Before(a, b)
    ensures Ordinal(a) < Ordinal(b)
  {
    OrdinalWithinYear(a);
    OrdinalWithinYear(b);
    if a.year < b.year {
      DaysBeforeYearStep(a.year);
      DaysBeforeYearMonotone(a.year + 1, b.year);
    } else if a.month < b.month {
      DaysBeforeMonthMonotone(a.year, a.month, b.month);
    }
  }

  /** Ordinals order dates exactly as the calendar does, and tell distinct
      dates apart. */
  lemma OrdinalOrder(a: Date, b: Date)
    requires WellShaped(a) && WellShaped(b)
    ensures Ordinal(a) < Ordinal(b) <==> Before(a, b)
    ensures Ordinal(a) == Ordinal(b) <==> a == b
  {
    if Before(a, b) {
      BeforeIncreasesOrdinal(a, b);
    } else if Before(b, a) {
      BeforeIncreasesOrdinal(b, a);
    }
  }

  // ---------------------------------------------------------------------
  // ISO 8601 week dates

  /** Python's `_isoweek1monday`: the ordinal of the Monday that starts ISO
      week 1 of year `y`. */
  function Week1Monday(y: int): (r: int)
    ensures (r + 6) % 7 == 0
    ensures YmdToOrdinal(y, 1, 1) <= r + 3 < YmdToOrdinal(y, 1, 1) + 7
  {
    Week1MondayFor(YmdToOrdinal(y, 1, 1))
  }

  /** The Monday of the week holding the day `firstDay` (a 1 January),
      moved on a week when that day falls on Friday to Sunday: week 1 is
      the first week with at least four days in the new year. */
  function Week1MondayFor(firstDay: int): (r: int)
    ensures (r + 6) % 7 == 0
    ensures firstDay <= r + 3 < firstDay + 7
  {
    var firstWeekday := (firstDay + 6) % 7;
    var monday := firstDay - firstWeekday;
    if firstWeekday > 3 then monday + 7 else monday
  }

  /** Consecutive ISO years are 52 or 53 weeks long. */
  lemma Week1MondayStep(y: int)
    ensures Week1Monday(y + 1) - Week1Monday(y) == 364
         || Week1Monday(y + 1) - Week1Monday(y) == 371
  {
    DaysBeforeYearStep(y);
    var a, b := Week1Monday(y), Week1Monday(y + 1);
    assert b - a == 7 * ((b + 6) / 7 - (a + 6) / 7);
  }

  lemma {:induction false} Week1MondayMonotone(y1: int, y2: int)
    requires y1 <= y2
    ensures Week1Monday(y1) + 364 * (y2 - y1) <= Week1Monday(y2)
    decreases y2 - y1
  {
    hide Week1Monday;
    if y1 < y2 {
      Week1MondayMonotone(y1, y2 - 1);
      Week1MondayStep(y2 - 1);
    }
  }

  /** Two Mondays lie a whole number of weeks apart. */
  lemma MondaysWeeksApart(a: int, b: int)
    requires (a + 6) % 7 == 0 && (b + 6) % 7 == 0
    ensures (b - a) % 7 == 0
  {
    assert b - a == 7 * ((b + 6) / 7 - (a + 6) / 7);
  }

  /** Day `o` belongs to ISO year `y`. */
  predicate InIsoYear(o: int, y: int) {
    Week1Monday(y) <= o < Week1Monday(y + 1)
  }

  /** ISO years partition the days: a day is in exactly one of them. */
  lemma IsoYearUnique(o: int, y1: int, y2: int)
    requires InIsoYear(o, y1) && InIsoYear(o, y2)
    ensures y1 == y2
  {
    hide Week1Monday;
    if y1 < y2 {
      Week1MondayMonotone(y1 + 1, y2);
    } else if y2 < y1 {
      Week1MondayMonotone(y2 + 1, y1);
    }
  }

  /** Before the first Monday of ISO year `y`, every day is in an earlier
      ISO year, and from it on in `y` or later. */
  lemma IsoYearOrder(o: int, y: int, e: int)
    requires InIsoYear(o, y)
    ensures y < e <==> o < Week1Monday(e)
  {
    hide Week1Monday;
    if y < e {
      Week1MondayMonotone(y + 1, e);
    } else {
      Week1MondayMonotone(e, y);
    }
  }

  /** `o` is day `r.weekday` of week `r.week` of ISO year `r.year`. */
  predicate IsWeekDateOf(o: int, r: IsoDate) {
    && InIsoYear(o, r.year)
    && o == Week1Monday(r.year) + 7 * (r.week - 1) + (r.weekday - 1)
    && 1 <= r.week <= 53 && 1 <= r.weekday <= 7
  }

  /** A day of ISO year `y` at offset `o - Week1Monday(y)` has the week and
      weekday that floor division by 7 gives. */
  lemma WeekDateByDivision(o: int, y: int)
    requires InIsoYear(o, y)
    ensures IsWeekDateOf(o, IsoDate(y, (o - Week1Monday(y)) / 7 + 1, (o - Week1Monday(y)) % 7 + 1))
  {
    Week1MondayStep(y);
    var a, b := Week1Monday(y), Week1Monday(y + 1);
    DivisionBounds(o - a, b - a);
  }

  lemma DivisionBounds(k: int, n: int)
    requires 0 <= k < n <= 371
    ensures k == 7 * (k / 7) + k % 7
    ensures 0 <= k / 7 <= 52 && 0 <= k % 7 < 7
  {
  }

  lemma ModAfterWholeWeeks(m: int, k: int, j: int)
    requires m % 7 == 0 && 0 <= j < 7
    ensures (m + 7 * k + j) % 7 == j
  {
    assert m + 7 * k + j == 7 * (m / 7 + k) + j;
  }

  /** The weekday of a week date is the day's position in its week. */
  lemma WeekdayOfWeekDate(o: int, r: IsoDate)
    requires IsWeekDateOf(o, r)
    ensures (o + 6) % 7 == r.weekday - 1
  {
    ModAfterWholeWeeks(Week1Monday(r.year) + 6, r.week - 1, r.weekday - 1);
  }

  /** The early-January case: a day before week 1 of its own year is in
      the last week of the previous ISO year. */
  function PreviousYearWeekDate(year: int, today: int): (r: IsoDate)
    requires YmdToOrdinal(year, 1, 1) <= today && (today - Week1Monday(year)) / 7 < 0
    ensures IsWeekDateOf(today, r)
  {
    var w0 := Week1Monday(year - 1);
    PreviousYearCase(year, today, w0);
    IsoDate(year - 1, (today - w0) / 7 + 1, (today - w0) % 7 + 1)
  }

  lemma PreviousYearCase(year: int, today: int, w0: int)
    requires YmdToOrdinal(year, 1, 1) <= today && (today - Week1Monday(year)) / 7 < 0
    requires w0 == Week1Monday(year - 1)
    ensures IsWeekDateOf(today, IsoDate(year - 1, (today - w0) / 7 + 1, (today - w0) % 7 + 1))
  {
    hide Week1Monday, IsLeap;
    DaysBeforeYearStep(year - 1);
    WeekDateByDivision(today, year - 1);
  }

  lemma NextYearArithmetic(o: int, a: int, b: int, c: int, j: int)
    requires b - a == 364 || b - a == 371
    requires j - 3 <= b <= j + 3 && c - b >= 364
    requires b <= o < j
    ensures b <= o < c
    ensures (o - a) % 7 == o - b
  {
    assert o - a == 7 * ((b - a) / 7) + (o - b);
  }

  /** The late-December case: a day on or after week 1 of the next year is
      in week 1 of that ISO year. */
  function NextYearWeekDate(year: int, today: int): (r: IsoDate)
    requires today < YmdToOrdinal(year, 1, 1) + DaysInYear(year)
    requires (today - Week1Monday(year)) / 7 >= 52 && today >= Week1Monday(year + 1)
    ensures IsWeekDateOf(today, r)
  {
    var w1 := Week1Monday(year);
    NextYearCase(year, today, w1);
    IsoDate(year + 1, 1, (today - w1) % 7 + 1)
  }

  lemma NextYearCase(year: int, today: int, w1: int)
    requires today < YmdToOrdinal(year, 1, 1) + DaysInYear(year)
    requires w1 == Week1Monday(year) && (today - w1) / 7 >= 52 && today >= Week1Monday(year + 1)
    ensures IsWeekDateOf(today, IsoDate(year + 1, 1, (today - w1) % 7 + 1))
  {
    hide Week1Monday, IsLeap;
    DaysBeforeYearStep(year);
    Week1MondayStep(year);
    Week1MondayStep(year + 1);
    NextYearArithmetic(today, w1, Week1Monday(year + 1), Week1Monday(year + 2),
                       YmdToOrdinal(year + 1, 1, 1));
    WeekDateByDivision(today, year + 1);
  }

  /** The common case: week 1..52 of the date's own year, or week 53 when
      the next year's week 1 has not started. */
  function SameYearWeekDate(year: int, today: int): (r: IsoDate)
    requires (today - Week1Monday(year)) / 7 >= 0
    requires !((today - Week1Monday(year)) / 7 >= 52 && today >= Week1Monday(year + 1))
    ensures IsWeekDateOf(today, r)
  {
    var w1 := Week1Monday(year);
    SameYearCase(year, today, w1);
    IsoDate(year, (today - w1) / 7 + 1, (today - w1) % 7 + 1)
  }

  lemma SameYearCase(year: int, today: int, w1: int)
    requires w1 == Week1Monday(year) && (today - w1) / 7 >= 0
    requires !((today - w1) / 7 >= 52 && today >= Week1Monday(year + 1))
    ensures IsWeekDateOf(today, IsoDate(year, (today - w1) / 7 + 1, (today - w1) % 7 + 1))
  {
    Week1MondayStep(year);
    WeekDateByDivision(today, year);
  }

  /** CPython's `date.isocalendar()` body for the day numbered `today` in
      Gregorian year `year`. */
  function IsoWeekDateIn(year: int, today: int): (r: IsoDate)
    requires YmdToOrdinal(year, 1, 1) <= today < YmdToOrdinal(year, 1, 1) + DaysInYear(year)
    ensures IsWeekDateOf(today, r)
  {
    var week := (today - Week1Monday(year)) / 7;
    if week < 0 then PreviousYearWeekDate(year, today)
    else if week >= 52 && today >= Week1Monday(year + 1) then NextYearWeekDate(year, today)
    else SameYearWeekDate(year, today)
  }

  /** `date.isocalendar()`; the contract is the ISO 8601 definition of the
      week date. */
  function IsoCalendar(d: Date): (r: IsoDate)
    requires Valid(d)
    ensures IsWeekDateOf(Ordinal(d), r)
    ensures MinYear <= r.year <= MaxYear
  {
    OrdinalWithinYear(d);
    ValidOrdinalRange(d);
    var r := IsoWeekDateIn(d.year, Ordinal(d));
    IsoYearInRange(Ordinal(d), r);
    r
  }

  /** The ISO weekday counts from 1 on Monday where `weekday()` counts
      from 0. */
  lemma IsoWeekdayMatchesWeekday(d: Date)
    requires Valid(d)
    ensures IsoCalendar(d).weekday == Weekday(d) + 1
  {
    hide Ordinal, IsoCalendar, Week1Monday;
    var o, r, w := Ordinal(d), IsoCalendar(d), Weekday(d);
    assert w == (o + 6) % 7;
    WeekdayOfWeekDateIs(o, r, w);
  }

  lemma WeekdayOfWeekDateIs(o: int, r: IsoDate, w: int)
    requires IsWeekDateOf(o, r) && w == (o + 6) % 7
    ensures r.weekday == w + 1
  {
    WeekdayOfWeekDate(o, r);
  }


  /** Week 1 of ISO year 1 starts on 0001-01-01, and ISO year 10000 starts
      on 10000-01-03, after the last day Python can hold. */
  lemma IsoYearBounds(o: int)
    requires 1 <= o <= MaxOrdinal
    ensures Week1Monday(MinYear) <= o < Week1Monday(MaxYear + 1)
  {
    FirstWeek1Monday();
    LastWeek1Monday();
  }

  lemma FirstWeek1Monday()
    ensures Week1Monday(MinYear) == 1
  {
    var p := 0;
    assert p / 4 == 0 && p / 100 == 0 && p / 400 == 0;
    assert DaysBeforeYear(1) == 0;
    var first := YmdToOrdinal(1, 1, 1);
    assert first == 1;
    assert (first + 6) % 7 == 0;
  }

  lemma LastWeek1Monday()
    ensures Week1Monday(MaxYear + 1) == MaxOrdinal + 3
  {
    var p := 9999;
    assert p / 4 == 2499 && p / 100 == 99 && p / 400 == 24;
    assert DaysBeforeYear(10000) == MaxOrdinal;
    var first := YmdToOrdinal(10000, 1, 1);
    assert first == MaxOrdinal + 1;
    assert (first + 6) % 7 == 5;
  }

  /** Every day Python can hold is in an ISO year between 1 and 9999. */
  lemma IsoYearInRange(o: int, r: IsoDate)
    requires 1 <= o <= MaxOrdinal && IsWeekDateOf(o, r)
    ensures MinYear <= r.year <= MaxYear
  {
    IsoYearBounds(o);
    IsoYearOrder(o, r.year, MinYear);
    IsoYearOrder(o, r.year, MaxYear + 1);
  }

  /** A day has one week date only. */
  lemma WeekDateUnique(o: int, r1: IsoDate, r2: IsoDate)
    requires IsWeekDateOf(o, r1) && IsWeekDateOf(o, r2)
    ensures r1 == r2
  {
    IsoYearUnique(o, r1.year, r2.year);
  }

  /** `date.fromisocalendar(year, 1, 1)`: the Monday of ISO week 1, which
      may fall in December of the previous year; ValueError outside years
      1..9999. */
  function FirstIsoMonday(year: int): (r: Result<Date, DateError>)
    ensures r.Success? <==> MinYear <= year <= MaxYear
    ensures r.Success? ==> Valid(r.value) && Ordinal(r.value) == Week1Monday(year)
  {
    if year < MinYear || year > MaxYear then Failure(ValueError)
    else
      var firstWeekday := (YmdToOrdinal(year, 1, 1) + 6) % 7;
      var monday :=
        if firstWeekday == 0 then Date(year, 1, 1)
        else if firstWeekday <= 3 then Date(year - 1, 12, 32 - firstWeekday)
        else Date(year, 1, 8 - firstWeekday);
      FirstIsoMondayCases(year, firstWeekday);
      Success(monday)
  }

  lemma FirstIsoMondayCases(year: int, firstWeekday: int)
    requires MinYear <= year <= MaxYear && firstWeekday == (YmdToOrdinal(year, 1, 1) + 6) % 7
    ensures firstWeekday == 0 ==>
      Valid(Date(year, 1, 1)) && Ordinal(Date(year, 1, 1)) == Week1Monday(year)
    ensures 1 <= firstWeekday <= 3 ==>
      Valid(Date(year - 1, 12, 32 - firstWeekday)) && Ordinal(Date(year - 1, 12, 32 - firstWeekday)) == Week1Monday(year)
    ensures 3 < firstWeekday ==>
      Valid(Date(year, 1, 8 - firstWeekday)) && Ordinal(Date(year, 1, 8 - firstWeekday)) == Week1Monday(year)
  {
    if 1 <= firstWeekday <= 3 {
      if year == 1 {
        FirstWeek1Monday();
      }
      DaysBeforeYearStep(year - 1);
    }
  }

  /** The Monday that starts ISO week 1 of `year` is day 1 of week 1 of
      `year`, so `fromisocalendar` and `isocalendar` agree. */
  lemma FirstIsoMondayRoundTrip(year: int)
    requires MinYear <= year <= MaxYear
    ensures IsoCalendar(FirstIsoMonday(year).value) == IsoDate(year, 1, 1)
  {
    var d := FirstIsoMonday(year).value;
    var r := IsoCalendar(d);
    Week1MondayStep(year);
    IsoYearUnique(Ordinal(d), r.year, year);
  }

  /** `date.isoformat()`: "YYYY-MM-DD", each field zero-padded. */
  function IsoFormat(d: Date): (s: string)
    requires Valid(d)
    ensures |s| == 10 && s[4] == '-' && s[7] == '-'
  {
    PadDigits(d.year, 4) + "-" + PadDigits(d.month, 2) + "-" + PadDigits(d.day, 2)
  }

  /** ISO-formatted dates sort as strings exactly as the dates sort in
      time, and distinct dates format differently. */
  lemma IsoFormatOrder(a: Date, b: Date)
    requires Valid(a) && Valid(b)
    ensures LexLess(IsoFormat(a), IsoFormat(b)) <==> Ordinal(a) < Ordinal(b)
    ensures IsoFormat(a) == IsoFormat(b) <==> a == b
  {
    OrdinalOrder(a, b);
    PadDigitsOrder(a.year, b.year, 4);
    PadDigitsOrder(a.month, b.month, 2);
    PadDigitsOrder(a.day, b.day, 2);
    LexLessDashed(PadDigits(a.year, 4), PadDigits(a.month, 2), PadDigits(a.day, 2),
                  PadDigits(b.year, 4), PadDigits(b.month, 2), PadDigits(b.day, 2));
  }
}

=== FILE: database.dfy ===
/** database.py: the `Database` class the views use, as operations on the
    `Store.Db` model of the tables. A query returns its rows; an update
    returns the new database or the exception it raises. */
module Database {
  import opened Wrappers
  import opened Text
  import opened Store

  // ---------------------------------------------------------------------
  // get_recent_days

  /** The default `num_of_days`, about three weeks of work days. */
  const DefaultRecentDays := 15

  /** The number of rows `LIMIT n` lets through out of `count`: SQLite reads
      a negative limit as no limit at all. */
  function LimitOf(n: int, count: nat): (k: nat)
    ensures k <= count
    ensures n >= 0 ==> k == if n < count then n else count
    ensures n < 0 ==> k == count
  {
    if n < 0 || n > count then count else n
  }

  /** The work dates a result lists. */
  function Dates(days: seq<(string, string)>): set<string> {
    set i | 0 <= i < |days| :: days[i].0
  }

  /** What `SELECT work_date, location FROM WorkDay ORDER BY work_date DESC
      LIMIT n` returns: as many rows as the limit allows, each a WorkDay row
      with its location, strictly newest first in TEXT order, and every
      date left out is older than every date listed. */
  predicate IsRecentDays(db: Db, n: int, days: seq<(string, string)>) {
    && |days| == LimitOf(n, |db.workDays|)
    && (forall i | 0 <= i < |days| :: days[i].0 in db.workDays && days[i].1 == db.workDays[days[i].0].location)
    && (forall i, j | 0 <= i < j < |days| :: LexLess(days[j].0, days[i].0))
    && (forall d | d in db.workDays.Keys - Dates(days) :: forall i | 0 <= i < |days| :: LexLess(d, days[i].0))
  }

  /** The latest of a non-empty set of dates in TEXT order. */
  method Latest(dates: set<string>) returns (latest: string)
    requires dates != {}
    ensures latest in dates
    ensures forall d | d in dates && d != latest :: LexLess(d, latest)
  {
    latest :| latest in dates;
    var rest := dates - {latest};
    while rest != {}
      invariant rest <= dates && latest in dates && latest !in rest
      invariant forall d | d in dates - rest && d != latest :: LexLess(d, latest)
      decreases |rest|
    {
      var d :| d in rest;
      if LexLess(latest, d) {
        forall e | e in dates - rest && e != latest ensures LexLess(e, d) {
          LexLessTransitive(e, latest, d);
        }
        latest := d;
      } else {
        LexLessTrichotomy(latest, d);
      }
      rest := rest - {d};
    }
  }

  /** The first rows of the answer: listed dates are WorkDay rows with
      their locations, strictly newest first, and every date still
      `remaining` is older than all of them. */
  predicate NewestFirst(db: Db, days: seq<(string, string)>, remaining: set<string>) {
    && remaining == db.workDays.Keys - Dates(days)
    && (forall i | 0 <= i < |days| :: days[i].0 in db.workDays && days[i].1 == db.workDays[days[i].0].location)
    && (forall i, j | 0 <= i < j < |days| :: LexLess(days[j].0, days[i].0))
    && (forall d | d in remaining :: forall i | 0 <= i < |days| :: LexLess(d, days[i].0))
  }

  /** Listing the latest remaining date next keeps the rows newest first. */
  lemma NewestFirstStep(db: Db, days: seq<(string, string)>, remaining: set<string>, latest: string)
    requires NewestFirst(db, days, remaining)
    requires latest in remaining && forall d | d in remaining && d != latest :: LexLess(d, latest)
    ensures NewestFirst(db, days + [(latest, db.workDays[latest].location)], remaining - {latest})
  {
    var next := days + [(latest, db.workDays[latest].location)];
    DatesAppend(days, next[|days|]);
    assert forall i | 0 <= i < |days| :: next[i] == days[i];
  }

  lemma DatesAppend(days: seq<(string, string)>, day: (string, string))
    ensures Dates(days + [day]) == Dates(days) + {day.0}
  {
    var next := days + [day];
    forall x | x in Dates(next) ensures x in Dates(days) + {day.0} {
      var i :| 0 <= i < |next| && next[i].0 == x;
      if i < |days| { assert days[i].0 == x; }
    }
    assert next[|days|] == day;
    forall x | x in Dates(days) ensures x in Dates(next) {
      var i :| 0 <= i < |days| && days[i].0 == x;
      assert next[i] == days[i];
    }
  }

  /** The exception the sqlite3 module raises when it binds a parameter:
      OverflowError for an int that does not fit SQLite's 64-bit INTEGER. */
  datatype BindError = OverflowError

  const Int64Min := -0x8000_0000_0000_0000
  const Int64Max := 0x7FFF_FFFF_FFFF_FFFF

  predicate FitsInt64(n: int) {
    Int64Min <= n <= Int64Max
  }

  /** `get_recent_days(num_of_days)`: the work dates with their locations,
      newest first, at most `num_of_days` of them. The count is a bound
      parameter, so one outside the 64-bit range raises before the query
      runs. */
  method GetRecentDays(db: Db, numOfDays: int) returns (r: Result<seq<(string, string)>, BindError>)
    ensures r.Failure? <==> !FitsInt64(numOfDays)
    ensures r.Success? ==> IsRecentDays(db, numOfDays, r.value)
  {
    if !FitsInt64(numOfDays) {
      return Failure(OverflowError);
    }
    var limit := LimitOf(numOfDays, |db.workDays|);
    var remaining := db.workDays.Keys;
    var days := [];
    while |days| < limit
      invariant |days| <= limit
      invariant NewestFirst(db, days, remaining)
      invariant |days| + |remaining| == |db.workDays|
      decreases limit - |days|
    {
      var latest := Latest(remaining);
      NewestFirstStep(db, days, remaining, latest);
      days := days + [(latest, db.workDays[latest].location)];
      remaining := remaining - {latest};
    }
    r := Success(days);
  }

  /** `get_recent_days()` with the default count: the fifteen newest work
      days, or all of them when there are fewer. */
  method GetRecentDaysDefault(db: Db) returns (days: seq<(string, string)>)
    ensures IsRecentDays(db, DefaultRecentDays, days)
    ensures |days| == if |db.workDays| < DefaultRecentDays then |db.workDays| else DefaultRecentDays
  {
    var r := GetRecentDays(db, DefaultRecentDays);
    days := r.value;
  }

  /** The query's answer is determined: two results that both meet
      `IsRecentDays` are the same list, so the ordering and the limit pin
      down every row. */
  lemma RecentDaysDetermined(db: Db, n: int, a: seq<(string, string)>, b: seq<(string, string)>)
    requires IsRecentDays(db, n, a) && IsRecentDays(db, n, b)
    ensures a == b
  {
    forall i | 0 <= i < |a| ensures a[i] == b[i] {
      SameDateAt(db, n, a, b, i);
    }
  }

  lemma {:induction false} SameDateAt(db: Db, n: int, a: seq<(string, string)>, b: seq<(string, string)>, i: int)
    requires IsRecentDays(db, n, a) && IsRecentDays(db, n, b) && 0 <= i < |a|
    ensures a[i] == b[i]
    decreases i
  {
    forall j | 0 <= j < i ensures a[j] == b[j] {
      SameDateAt(db, n, a, b, j);
    }
    if a[i].0 != b[i].0 {
      LexLessTrichotomy(a[i].0, b[i].0);
      if LexLess(b[i].0, a[i].0) {
        NotBelowListed(db, n, a, b, i);
      } else {
        NotBelowListed(db, n, b, a, i);
      }
    }
  }

  /** If the two results agree before position i, the date at i in `b`
      cannot be below the date at i in `a`. */
  lemma NotBelowListed(db: Db, n: int, a: seq<(string, string)>, b: seq<(string, string)>, i: int)
    requires IsRecentDays(db, n, a) && IsRecentDays(db, n, b) && 0 <= i < |a|
    requires forall j | 0 <= j < i :: a[j] == b[j]
    ensures !LexLess(b[i].0, a[i].0)
  {
    var x := a[i].0;
    if LexLess(b[i].0, x) {
      if x in Dates(b) {
        var j :| 0 <= j < |b| && b[j].0 == x;
        if j < i {
          assert a[j].0 == x;
          assert LexLess(a[i].0, a[j].0);
          LexLessIrreflexive(x);
        } else if j == i {
          LexLessIrreflexive(x);
        } else {
          assert LexLess(x, b[i].0);
          LexLessAsymmetric(x, b[i].0);
        }
      } else {
        assert x in db.workDays.Keys - Dates(b);
        assert LexLess(x, b[i].0);
        LexLessAsymmetric(x, b[i].0);
      }
    }
  }

  // ---------------------------------------------------------------------
  // get_work_day and set_location

  /** `get_work_day(work_date)`: `fetchone()` of the row with that key, as
      `(work_date, week_number, location)`, or None when there is none. */
  function GetWorkDay(db: Db, workDate: string): (r: Option<(string, string, string)>)
    ensures r.Some? <==> workDate in db.workDays
    ensures r.Some? ==> r.value == (workDate, db.workDays[workDate].weekNumber, db.workDays[workDate].location)
  {
    if workDate in db.workDays then
      Some((workDate, db.workDays[workDate].weekNumber, db.workDays[workDate].location))
    else None
  }

  /** `set_location(work_date, new_location)`: `UPDATE WorkDay SET location
      WHERE work_date`. An UPDATE that matches no row changes nothing and
      checks nothing. On the matched row the new location must be a
      Location row, or the statement raises IntegrityError, which the
      method re-raises, and the row stays as it was. */
  function SetLocation(db: Db, workDate: string, newLocation: string): (r: Result<Db, DbError>)
    ensures r.Failure? <==> workDate in db.workDays && newLocation !in db.locations
    ensures r.Failure? ==> r.error == IntegrityError
    ensures r.Success? ==> r.value.weeks == db.weeks && r.value.locations == db.locations
    ensures r.Success? ==> r.value.workDays.Keys == db.workDays.Keys
  {
    if workDate !in db.workDays then Success(db)
    else if newLocation !in db.locations then Failure(IntegrityError)
    else
      var row := db.workDays[workDate];
      Success(db.(workDays := db.workDays[workDate := row.(location := newLocation)]))
  }

  /** After a successful update, `get_work_day` reads the new location with
      the week number unchanged, and every other date reads as before. */
  lemma SetLocationReadBack(db: Db, workDate: string, newLocation: string, other: string)
    requires SetLocation(db, workDate, newLocation).Success?
    ensures var after := SetLocation(db, workDate, newLocation).value;
      && (workDate in db.workDays ==>
            GetWorkDay(after, workDate) == Some((workDate, db.workDays[workDate].weekNumber, newLocation)))
      && (other != workDate || workDate !in db.workDays ==> GetWorkDay(after, other) == GetWorkDay(db, other))
  {
  }

  /** An update never breaks a foreign key: the only location it can store
      is a Location row. */
  lemma SetLocationKeepsForeignKeys(db: Db, workDate: string, newLocation: string)
    requires ForeignKeysHold(db) && SetLocation(db, workDate, newLocation).Success?
    ensures ForeignKeysHold(SetLocation(db, workDate, newLocation).value)
  {
  }

  /** Setting a work day to the location it already has changes nothing. */
  lemma SetSameLocation(db: Db, workDate: string)
    requires ForeignKeysHold(db) && workDate in db.workDays
    ensures SetLocation(db, workDate, db.workDays[workDate].location) == Success(db)
  {
    var row := db.workDays[workDate];
    assert row.(location := row.location) == row;
    assert db.workDays[workDate := row] == db.workDays;
  }

  /** A location that is not a Location row is refused with IntegrityError,
      and setting the original location back afterwards finds the database
      as it was. */
  lemma SetLocationRejected(db: Db, workDate: string, newLocation: string)
    requires ForeignKeysHold(db) && workDate in db.workDays && newLocation !in db.locations
    ensures SetLocation(db, workDate, newLocation) == Failure(IntegrityError)
    ensures SetLocation(db, workDate, db.workDays[workDate].location) == Success(db)
  {
    SetSameLocation(db, workDate);
  }

  /** Setting a new location and then the original one restores the
      database. */
  lemma SetLocationUndo(db: Db, workDate: string, newLocation: string)
    requires ForeignKeysHold(db) && workDate in db.workDays
    requires SetLocation(db, workDate, newLocation).Success?
    ensures var original := db.workDays[workDate].location;
      SetLocation(SetLocation(db, workDate, newLocation).value, workDate, original) == Success(db)
  {
    var row := db.workDays[workDate];
    var after := SetLocation(db, workDate, newLocation).value;
    assert after.workDays[workDate := row] == db.workDays;
  }

  /** Repeating an update changes nothing more. */
  lemma SetLocationIdempotent(db: Db, workDate: string, newLocation: string)
    requires SetLocation(db, workDate, newLocation).Success?
    ensures var once := SetLocation(db, workDate, newLocation).value;
      SetLocation(once, workDate, newLocation) == Success(once)
  {
    var once := SetLocation(db, workDate, newLocation).value;
    if workDate in db.workDays {
      var row := once.workDays[workDate];
      assert once.workDays[workDate := row.(location := newLocation)] == once.workDays;
    }
  }
}

=== FILE: html.dfy ===
/** py_html.py: `PyHTML` builds a page as a list of text fragments. The
    list starts with the head and "<body>\n" and ends with
    "</body>\n</html>"; every element method inserts its fragment just
    before that last entry, so the fragments land in the body in call
    order. */
module PyHtml {
  import opened Wrappers
  import opened Text

  /** The stylesheet `__init__` links when none is given. */
  const DefaultStylesheet := "https://classless.de/classless.css"

  const BodyOpen := "<body>\n"
  const BodyClose := "</body>\n</html>"

  /** The head fragment exactly as the f-string in `__init__` writes it,
      the source's own indentation and trailing spaces included. */
  function Head(title: string, stylesheet: string): string {
    HeadStart
    + "          <link rel=\"stylesheet\" href=\"" + stylesheet + "\">\n"
    + "          <title>" + title + "</title>\n"
    + HeadEnd
  }

  /** The fixed lines of the head before the stylesheet link, and after the
      title. */
  const HeadStart := "\n        <!DOCTYPE html>\n        <html lang=\"en\">\n        <head>\n"
    + "          <meta charset=\"UTF-8\">\n"
    + "          <meta name=\"viewport\" content=\"width=device-width, initial-scale=1.0\">\n"
  const HeadEnd := "        </head>        \n        "

  /** The `doc` list of a `PyHTML` object. */
  datatype Page = Page(doc: seq<string>)

  /** The shape every page keeps: head, "<body>\n", the body fragments,
      then the closing fragment. */
  predicate IsPage(p: Page) {
    && |p.doc| >= 3
    && p.doc[1] == BodyOpen
    && p.doc[|p.doc| - 1] == BodyClose
  }

  /** The fragments added so far, in order. */
  function Body(p: Page): seq<string>
    requires IsPage(p)
  {
    p.doc[2..|p.doc| - 1]
  }

  /** `PyHTML(title, stylesheet=None)`. */
  function New(title: string, stylesheet: Option<string>): (p: Page)
    ensures IsPage(p) && Body(p) == []
    ensures p.doc[0] == Head(title, if stylesheet.Some? then stylesheet.value else DefaultStylesheet)
  {
    Page([Head(title, if stylesheet.Some? then stylesheet.value else DefaultStylesheet), BodyOpen, BodyClose])
  }

  /** Python's `list.insert(-1, x)`: `x` goes before the last entry, or is
      the only entry of an empty list. */
  function InsertBeforeLast(xs: seq<string>, x: string): (r: seq<string>)
    ensures |r| == |xs| + 1
    ensures |xs| > 0 ==> r[|r| - 1] == xs[|xs| - 1] && r[|r| - 2] == x && r[..|xs| - 1] == xs[..|xs| - 1]
  {
    if |xs| == 0 then [x] else xs[..|xs| - 1] + [x] + [xs[|xs| - 1]]
  }

  /** Adding a fragment keeps the page's shape and head and appends the
      fragment to the body. */
  function Add(p: Page, fragment: string): (r: Page)
    ensures IsPage(p) ==> IsPage(r) && r.doc[0] == p.doc[0] && Body(r) == Body(p) + [fragment]
  {
    var r := Page(InsertBeforeLast(p.doc, fragment));
    if IsPage(p) then
      assert Body(r) == Body(p) + [fragment] by {
        assert r.doc[..|p.doc| - 1] == p.doc[..|p.doc| - 1];
        assert Body(r) == r.doc[..|p.doc| - 1][2..] + [fragment];
      }
      r
    else r
  }

  /** `<tag>content</tag>`, as every element method writes it. */
  function Element(tag: string, content: string): (s: string) {
    "<" + tag + ">" + content + "</" + tag + ">"
  }

  /** The content can be read back out of an element. */
  lemma ElementContent(tag: string, content: string)
    ensures var s := Element(tag, content);
      s[|tag| + 2..|s| - |tag| - 3] == content
  {
    var s := Element(tag, content);
    assert s == ("<" + tag + ">") + content + ("</" + tag + ">");
  }

  /** An element spans lines only if its content does. */
  lemma ElementOneLine(tag: string, content: string, sep: char)
    requires sep !in tag && sep !in content && sep != '<' && sep != '>' && sep != '/'
    ensures sep !in Element(tag, content)
  {
    var s := Element(tag, content);
    forall k | 0 <= k < |s| ensures s[k] != sep {
      if k == 0 || k == |tag| + 1 {
      } else if k < |tag| + 1 {
        assert s[k] == tag[k - 1];
      } else if k < |tag| + 2 + |content| {
        assert s[k] == content[k - |tag| - 2];
      } else if k >= |tag| + 4 + |content| && k < |s| - 1 {
        assert s[k] == tag[k - |tag| - 4 - |content|];
      }
    }
  }

  /** `h1(content)`, `h2(content)`, `h3(content)` and `p(content)`. */
  function H1(p: Page, content: string): Page {
    Add(p, Element("h1", content))
  }

  function H2(p: Page, content: string): Page {
    Add(p, Element("h2", content))
  }

  function H3(p: Page, content: string): Page {
    Add(p, Element("h3", content))
  }

  function Paragraph(p: Page, content: string): Page {
    Add(p, Element("p", content))
  }

  /** Each element method appends its element to the body, whose earlier
      fragments stay as they were, and the page keeps its shape and head. */
  lemma ElementMethodsAppend(p: Page, content: string)
    requires IsPage(p)
    ensures IsPage(H1(p, content)) && Body(H1(p, content)) == Body(p) + ["<h1>" + content + "</h1>"]
    ensures IsPage(H2(p, content)) && Body(H2(p, content)) == Body(p) + ["<h2>" + content + "</h2>"]
    ensures IsPage(H3(p, content)) && Body(H3(p, content)) == Body(p) + ["<h3>" + content + "</h3>"]
    ensures IsPage(Paragraph(p, content)) && Body(Paragraph(p, content)) == Body(p) + ["<p>" + content + "</p>"]
    ensures H1(p, content).doc[0] == H2(p, content).doc[0] == H3(p, content).doc[0] == Paragraph(p, content).doc[0] == p.doc[0]
  {
    assert Element("h1", content) == "<h1>" + content + "</h1>";
    assert Element("h2", content) == "<h2>" + content + "</h2>";
    assert Element("h3", content) == "<h3>" + content + "</h3>";
    assert Element("p", content) == "<p>" + content + "</p>";
  }

  // ---------------------------------------------------------------------
  // table

  /** One table row: "<tr>", a cell per column, "</tr>". */
  function RowLines(cellTag: string, cells: seq<string>): (lines: seq<string>)
    ensures |lines| == |cells| + 2
  {
    ["<tr>"] + seq(|cells|, i requires 0 <= i < |cells| => Element(cellTag, cells[i])) + ["</tr>"]
  }

  /** The data rows, one after the other. */
  function RowsLines(rows: seq<seq<string>>): (lines: seq<string>)
  {
    if |rows| == 0 then [] else RowLines("td", rows[0]) + RowsLines(rows[1..])
  }

  /** The number of cells in the data rows. */
  function CellCount(rows: seq<seq<string>>): nat {
    if |rows| == 0 then 0 else |rows[0]| + CellCount(rows[1..])
  }

  /** The list `tbl` that `table(headers, rows)` builds. */
  function TableLines(headers: seq<string>, rows: seq<seq<string>>): seq<string> {
    ["<table>"] + RowLines("th", headers) + RowsLines(rows) + ["</table>"]
  }

  /** `table(headers, rows)`: the lines joined with "\n" and added to the
      body; each cell is the `str` of its value, given here as text. */
  function Table(p: Page, headers: seq<string>, rows: seq<seq<string>>): (r: Page)
    ensures IsPage(p) ==>
      && IsPage(r) && r.doc[0] == p.doc[0]
      && Body(r) == Body(p) + [Join('\n', TableLines(headers, rows))]
  {
    Add(p, Join('\n', TableLines(headers, rows)))
  }

  /** The table has a line for its start and end, two per row (the header
      row included) and one per cell. */
  lemma {:induction false} TableLineCount(headers: seq<string>, rows: seq<seq<string>>)
    ensures |TableLines(headers, rows)| == 4 + |headers| + 2 * |rows| + CellCount(rows)
  {
    RowsLineCount(rows);
  }

  lemma {:induction false} RowsLineCount(rows: seq<seq<string>>)
    ensures |RowsLines(rows)| == 2 * |rows| + CellCount(rows)
  {
    if |rows| > 0 {
      RowsLineCount(rows[1..]);
    }
  }

  /** No cell holds a line break. */
  predicate SingleLineCells(cells: seq<string>) {
    forall i | 0 <= i < |cells| :: '\n' !in cells[i]
  }

  lemma RowOneLine(cellTag: string, cells: seq<string>)
    requires '\n' !in cellTag && SingleLineCells(cells)
    ensures forall k | 0 <= k < |RowLines(cellTag, cells)| :: '\n' !in RowLines(cellTag, cells)[k]
  {
    var lines := RowLines(cellTag, cells);
    forall k | 0 < k < |lines| - 1 ensures '\n' !in lines[k] {
      ElementOneLine(cellTag, cells[k - 1], '\n');
    }
  }

  lemma {:induction false} RowsOneLine(rows: seq<seq<string>>)
    requires forall r | 0 <= r < |rows| :: SingleLineCells(rows[r])
    ensures forall k | 0 <= k < |RowsLines(rows)| :: '\n' !in RowsLines(rows)[k]
  {
    if |rows| > 0 {
      RowOneLine("td", rows[0]);
      RowsOneLine(rows[1..]);
    }
  }

  /** When no header or cell holds a line break, splitting the table's
      fragment at line breaks gives back exactly the lines of `tbl`: the
      table occupies one line per tag, in order. */
  lemma TableRoundTrip(headers: seq<string>, rows: seq<seq<string>>)
    requires SingleLineCells(headers)
    requires forall r | 0 <= r < |rows| :: SingleLineCells(rows[r])
    ensures Split(Join('\n', TableLines(headers, rows)), '\n') == TableLines(headers, rows)
  {
    var lines := TableLines(headers, rows);
    var head := RowLines("th", headers);
    var body := RowsLines(rows);
    RowOneLine("th", headers);
    RowsOneLine(rows);
    forall k | 0 <= k < |lines| ensures '\n' !in lines[k] {
      if 0 < k <= |head| {
        assert lines[k] == head[k - 1];
      } else if |head| < k < |lines| - 1 {
        assert lines[k] == body[k - 1 - |head|];
      }
    }
    SplitJoin(lines, '\n');
  }

  /** The fragments one after the other. */
  function Concat(xs: seq<string>): string {
    if |xs| == 0 then "" else xs[0] + Concat(xs[1..])
  }

  /** `render(filename)` writes the fragments with `writelines`, which adds
      no separators; the file itself is left out. */
  function Render(p: Page): string {
    Concat(p.doc)
  }

  /** A rendered page starts with its head and "<body>\n", and ends with
      "</body>\n</html>". */
  lemma RenderFrame(p: Page)
    requires IsPage(p)
    ensures var text := Render(p);
      && |text| >= |p.doc[0]| + |BodyOpen|
      && text[..|p.doc[0]| + |BodyOpen|] == p.doc[0] + BodyOpen
      && |text| >= |BodyClose| && text[|text| - |BodyClose|..] == BodyClose
  {
    var doc := p.doc;
    assert doc[1..][0] == BodyOpen && doc[1..][1..] == doc[2..];
    assert Concat(doc) == doc[0] + BodyOpen + Concat(doc[2..]);
    ConcatEnds(doc);
  }

  lemma {:induction false} ConcatEnds(doc: seq<string>)
    requires |doc| > 0
    ensures var text := Concat(doc); var last := doc[|doc| - 1];
      |text| >= |last| && text[|text| - |last|..] == last
  {
    if |doc| > 1 {
      ConcatEnds(doc[1..]);
      assert doc[1..][|doc[1..]| - 1] == doc[|doc| - 1];
    }
  }
}

=== FILE: setup.dfy ===
/** db_setup.py run as a script: create the tables, fill Week for the ISO
    years 2023 to 2026, fill Location, then fill WorkDay from the CSV file.
    The point of the script is that a work day's week number, derived from
    its date the same way the Week rows are numbered, finds its Week row,
    and that the week so found contains the day. */
module Setup {
  import opened Wrappers
  import opened Text
  import opened Calendar
  import opened WeekData
  import opened WeekDataProperties
  import opened Store

  /** The years the script passes to `fill_week_table`. */
  const FirstYear := 2023
  const EndYear := 2027

  /** How the script ends: the database file as the steps that ran left
      it, and the exception that stopped the script, if one did. */
  datatype Run = Run(saved: Db, raised: Option<DbError>)

  /** Every row of `before` is still in `after`, unchanged. */
  predicate Keeps(before: Db, after: Db) {
    && (forall n | n in before.weeks :: n in after.weeks && after.weeks[n] == before.weeks[n])
    && before.locations <= after.locations
    && (forall d | d in before.workDays :: d in after.workDays && after.workDays[d] == before.workDays[d])
  }

  /** The script's four steps, with the years of the Week table as
      parameters. Each step opens its own connection and commits, so the
      first exception ends the script with the earlier steps' work saved. */
  function SetUpDatabase(existing: Option<Db>, startYear: int, endYear: int, rows: seq<CsvRow>): (r: Run)
    ensures Keeps(CreateTables(existing), r.saved)
    ensures r.raised.None? ==> Office in r.saved.locations && Remote in r.saved.locations
    ensures !(1 <= startYear <= MaxYear && endYear <= MaxYear) ==>
      r.raised.Some? && r.saved == CreateTables(existing)
    ensures 1 <= startYear <= MaxYear && endYear <= MaxYear ==>
      Office in r.saved.locations && Remote in r.saved.locations
    ensures r.raised.Some? ==> r.saved.workDays == CreateTables(existing).workDays
  {
    var created := CreateTables(existing);
    match FillWeekTable(created, startYear, endYear)
    case Failure(e) => Run(created, Some(e))
    case Success(withWeeks) =>
      FillWeekTableRows(created, startYear, endYear);
      var withLocations := FillLocationTable(withWeeks);
      match FillWorkDayTable(withLocations, rows)
      case Failure(e) => Run(withLocations, Some(e))
      case Success(db) =>
        FillWorkDayTableKeeps(withLocations, rows);
        Run(db, None)
  }

  /** The script as written: Week rows for 2023 up to 2027. */
  function RunSetup(existing: Option<Db>, rows: seq<CsvRow>): Run {
    SetUpDatabase(existing, FirstYear, EndYear, rows)
  }

  /** The Week table the script builds in a new database. */
  function SetupWeeks(startYear: int, endYear: int): map<string, WeekRow>
    requires MinYear <= startYear <= MaxYear && endYear <= MaxYear
  {
    FillWeekTable(CreateTables(None), startYear, endYear).value.weeks
  }

  /** The WorkDay row for `date` names a Week row whose start and end
      bracket the date in SQLite's TEXT order. */
  predicate WithinItsWeek(weeks: map<string, WeekRow>, date: string, row: WorkDayRow) {
    && row.weekNumber in weeks
    && !LexLess(date, weeks[row.weekNumber].weekStart)
    && !LexLess(weeks[row.weekNumber].weekEnd, date)
  }

  /** A CSV row the script accepts: a real date in the ISO years of the
      Week table, at one of the two locations. */
  predicate Loggable(row: CsvRow, startYear: int, endYear: int) {
    && Valid(DateOf(row))
    && startYear <= IsoCalendar(DateOf(row)).year < endYear
    && (row.location == Office || row.location == Remote)
  }

  /** The week number `fill_workday_table` derives for a day within the
      years of the Week table is a row of that table, and that week runs
      from on or before the day to on or after it. */
  lemma WeekOfDay(startYear: int, endYear: int, d: Date)
    requires MinYear <= startYear <= MaxYear && endYear <= MaxYear
    requires Valid(d) && startYear <= IsoCalendar(d).year < endYear
    ensures var weeks, n := SetupWeeks(startYear, endYear), WeekIdOf(d);
      && n in weeks
      && !LexLess(IsoFormat(d), weeks[n].weekStart)
      && !LexLess(weeks[n].weekEnd, IsoFormat(d))
  {
    var w := StoredWeekOf(startYear, endYear, d);
    hide IsoCalendar, WeekIdOf, SetupWeeks;
    IsoFormatOrder(d, w.start);
    IsoFormatOrder(w.end, d);
  }

  /** The generated week that holds `d`, and its stored row. */
  lemma StoredWeekOf(startYear: int, endYear: int, d: Date) returns (w: WeekRecord)
    requires MinYear <= startYear <= MaxYear && endYear <= MaxYear
    requires Valid(d) && startYear <= IsoCalendar(d).year < endYear
    ensures Valid(w.start) && Valid(w.end) && Ordinal(w.start) <= Ordinal(d) <= Ordinal(w.end)
    ensures WeekIdOf(d) in SetupWeeks(startYear, endYear)
    ensures SetupWeeks(startYear, endYear)[WeekIdOf(d)] == WeekRow(IsoFormat(w.start), IsoFormat(w.end))
  {
    var rs, k := GeneratedWeekOf(startYear, endYear, d);
    w := rs[k];
    FillWeekTableNewWeek(CreateTables(None), startYear, endYear, k);
    hide GenerateWeekData, FillWeekTable, IsoCalendar, IsoFormat, Week1Monday, WeekIdOf, Ordinal;
    assert WeekHolds(w, d);
  }

  lemma GeneratedWeekOf(startYear: int, endYear: int, d: Date) returns (rs: seq<WeekRecord>, k: int)
    requires MinYear <= startYear <= MaxYear && endYear <= MaxYear
    requires Valid(d) && startYear <= IsoCalendar(d).year < endYear
    ensures GenerateWeekData(startYear, endYear) == Success(rs)
    ensures 0 <= k < |rs| && WeekHolds(rs[k], d)
  {
    rs := GenerateWeekData(startYear, endYear).value;
    ContainingWeek(startYear, endYear, rs, d);
    k := (Ordinal(d) - Week1Monday(startYear)) / 7;
  }

  /** Every WorkDay row lies within the week it references. */
  predicate DaysWithinWeeks(db: Db) {
    forall d | d in db.workDays :: WithinItsWeek(db.weeks, d, db.workDays[d])
  }

  /** Every row of the file is a date, stored under its ISO format. */
  predicate AllStored(db: Db, rows: seq<CsvRow>) {
    forall i | 0 <= i < |rows| :: Valid(DateOf(rows[i])) && IsoFormat(DateOf(rows[i])) in db.workDays
  }

  /** Every tuple has its parent rows in `db` and lies within its week. */
  predicate TuplesFitIn(db: Db, ts: seq<(string, WorkDayRow)>) {
    forall i | 0 <= i < |ts| :: HasParents(db, ts[i].1) && WithinItsWeek(db.weeks, ts[i].0, ts[i].1)
  }

  /** The database just before `fill_workday_table`: the Week rows of the
      years, both locations, no work day yet. */
  lemma BeforeWorkDays(startYear: int, endYear: int, rows: seq<CsvRow>) returns (db: Db)
    requires MinYear <= startYear <= MaxYear && endYear <= MaxYear
    ensures db.weeks == SetupWeeks(startYear, endYear) && db.workDays == map[]
    ensures Office in db.locations && Remote in db.locations
    ensures FillWorkDayTable(db, rows).Success? ==>
      SetUpDatabase(None, startYear, endYear, rows) == Run(FillWorkDayTable(db, rows).value, None)
  {
    db := FillLocationTable(FillWeekTable(CreateTables(None), startYear, endYear).value);
  }

  /** Every tuple built from loggable rows has its parent rows and lies
      within its week. */
  lemma TuplesFit(startYear: int, endYear: int, rows: seq<CsvRow>, db: Db)
    requires MinYear <= startYear <= MaxYear && endYear <= MaxYear
    requires forall i | 0 <= i < |rows| :: Loggable(rows[i], startYear, endYear)
    requires db.weeks == SetupWeeks(startYear, endYear) && Office in db.locations && Remote in db.locations
    ensures WorkDayTuples(rows).Success? && TuplesFitIn(db, WorkDayTuples(rows).value)
  {
    assert forall i | 0 <= i < |rows| :: Valid(DateOf(rows[i]));
    WorkDayTuplesSpec(rows);
    var ts := WorkDayTuples(rows).value;
    forall i | 0 <= i < |ts|
      ensures HasParents(db, ts[i].1) && WithinItsWeek(db.weeks, ts[i].0, ts[i].1)
    {
      TupleFits(startYear, endYear, rows[i], db);
    }
  }

  lemma TupleFits(startYear: int, endYear: int, row: CsvRow, db: Db)
    requires MinYear <= startYear <= MaxYear && endYear <= MaxYear && Loggable(row, startYear, endYear)
    requires db.weeks == SetupWeeks(startYear, endYear) && Office in db.locations && Remote in db.locations
    ensures var t := WorkDayTuple(DateOf(row), row.location);
      HasParents(db, t.1) && WithinItsWeek(db.weeks, t.0, t.1)
  {
    WeekOfDay(startYear, endYear, DateOf(row));
  }

  /** `fill_workday_table` with tuples that all fit: it succeeds, stores
      every date, and keeps the foreign keys and every day within its
      week. */
  lemma FillFitting(db: Db, rows: seq<CsvRow>)
    requires ForeignKeysHold(db) && DaysWithinWeeks(db)
    requires WorkDayTuples(rows).Success? && TuplesFitIn(db, WorkDayTuples(rows).value)
    ensures FillWorkDayTable(db, rows).Success?
    ensures var r := FillWorkDayTable(db, rows).value;
      && ForeignKeysHold(r) && DaysWithinWeeks(r)
      && forall i | 0 <= i < |rows| :: WorkDayTuples(rows).value[i].0 in r.workDays
  {
    var ts := WorkDayTuples(rows).value;
    FillWorkDayTableFails(db, rows);
    var result := FillWorkDayTable(db, rows);
    assert result.Success?;
    FillWorkDayTableKeeps(db, rows);
    var rel := (date, row) => WithinItsWeek(db.weeks, date, row);
    InsertOrIgnoreAll(db.workDays, ts, ParentsIn(db), rel);
    forall i | 0 <= i < |rows| ensures ts[i].0 in result.value.workDays {
      assert ts[i].0 in Keys(ts);
    }
  }

  /** Run on a new database with a file of loggable rows, the script
      succeeds, every foreign key holds, every logged day is stored, and
      every stored day lies within the week its row references. */
  lemma LogsEveryDay(startYear: int, endYear: int, rows: seq<CsvRow>)
    requires MinYear <= startYear <= MaxYear && endYear <= MaxYear
    requires forall i | 0 <= i < |rows| :: Loggable(rows[i], startYear, endYear)
    ensures SetUpDatabase(None, startYear, endYear, rows).raised.None?
    ensures var db := SetUpDatabase(None, startYear, endYear, rows).saved;
      ForeignKeysHold(db) && DaysWithinWeeks(db) && AllStored(db, rows)
  {
    var db := BeforeWorkDays(startYear, endYear, rows);
    TuplesFit(startYear, endYear, rows, db);
    WorkDayTuplesSpec(rows);
    hide SetUpDatabase, SetupWeeks, IsoCalendar, WeekIdOf, Loggable, IsoFormat, TuplesFitIn;
    FillFitting(db, rows);
  }

  /** The script as written logs every day of ISO years 2023 to 2026. */
  lemma SetupLogsEveryDay(rows: seq<CsvRow>)
    requires forall i | 0 <= i < |rows| :: Loggable(rows[i], FirstYear, EndYear)
    ensures RunSetup(None, rows).raised.None?
    ensures var db := RunSetup(None, rows).saved;
      ForeignKeysHold(db) && DaysWithinWeeks(db) && AllStored(db, rows)
  {
    hide SetUpDatabase, GenerateWeekData, FillWeekTable;
    LogsEveryDay(FirstYear, EndYear, rows);
  }
}

=== FILE: store.dfy ===
/** The work-location database that db_setup.py builds: the Week, Location
    and WorkDay tables `create_tables` declares, and the INSERT OR IGNORE
    statements that fill them. A table is a map from its primary key to the
    rest of its row, so no key occurs twice; the two FOREIGN KEY clauses of
    WorkDay are `ForeignKeysHold`. */
module Store {
  import opened Wrappers
  import opened Calendar
  import opened WeekData
  import opened WeekDataProperties

  /** A Week row without its key `week_number`. */
  datatype WeekRow = WeekRow(weekStart: string, weekEnd: string)

  /** A WorkDay row without its key `work_date`. */
  datatype WorkDayRow = WorkDayRow(weekNumber: string, location: string)

  datatype Db = Db(weeks: map<string, WeekRow>, locations: set<string>, workDays: map<string, WorkDayRow>)

  /** How a database operation can end in an exception: an error raised by
      `date` while the rows are prepared, or SQLite's IntegrityError. */
  datatype DbError = DateFailure(cause: DateError) | IntegrityError

  /** Both foreign keys of a WorkDay row have their parent row. */
  predicate HasParents(db: Db, row: WorkDayRow) {
    row.weekNumber in db.weeks && row.location in db.locations
  }

  /** `FOREIGN KEY (week_number) REFERENCES Week` and
      `FOREIGN KEY (location) REFERENCES Location`. */
  predicate ForeignKeysHold(db: Db) {
    forall d | d in db.workDays :: HasParents(db, db.workDays[d])
  }

  /** `create_tables`: each table is created only if it does not exist, so a
      database that has the tables keeps its rows and a new one is empty. */
  function CreateTables(existing: Option<Db>): (db: Db)
    ensures existing.None? ==> ForeignKeysHold(db) && |db.weeks| == |db.locations| == |db.workDays| == 0
    ensures existing.Some? ==> db == existing.value
  {
    match existing
    case Some(current) => current
    case None => Db(map[], {}, map[])
  }

  /** Running `create_tables` a second time changes nothing. */
  lemma CreateTablesIdempotent(existing: Option<Db>)
    ensures CreateTables(Some(CreateTables(existing))) == CreateTables(existing)
  {
  }

  // ---------------------------------------------------------------------
  // INSERT OR IGNORE

  /** The keys a batch of rows carries. */
  function Keys<K, V>(rows: seq<(K, V)>): set<K> {
    set i | 0 <= i < |rows| :: rows[i].0
  }

  /** Row `i` of the batch is the first with its key, and the key is not in
      the table yet: this is the row the statement stores. */
  predicate IsNewRow<K, V>(table: map<K, V>, rows: seq<(K, V)>, i: int)
    requires 0 <= i < |rows|
  {
    rows[i].0 !in table && forall j | 0 <= j < i :: rows[j].0 != rows[i].0
  }

  /** `executemany` of `INSERT OR IGNORE INTO ... VALUES (...)`, row by row.
      A row whose key is present, stored before or by an earlier row of the
      batch, is skipped (OR IGNORE covers the PRIMARY KEY). A new row is
      stored if `parentOk` accepts it; otherwise its foreign key fails, which
      OR IGNORE does not cover, and the statement raises IntegrityError
      (None). The fills commit only after the whole batch, so then no row of
      the batch remains. */
  function InsertOrIgnore<K, V>(table: map<K, V>, rows: seq<(K, V)>, parentOk: V -> bool): (r: Option<map<K, V>>)
    ensures r.Some? ==> r.value.Keys == table.Keys + Keys(rows)
    decreases |rows|
  {
    if |rows| == 0 then Some(table)
    else
      KeysCons(rows);
      var (k, v) := rows[0];
      if k in table then InsertOrIgnore(table, rows[1..], parentOk)
      else if !parentOk(v) then None
      else InsertOrIgnore(table[k := v], rows[1..], parentOk)
  }

  lemma KeysCons<K, V>(rows: seq<(K, V)>)
    requires |rows| > 0
    ensures Keys(rows) == {rows[0].0} + Keys(rows[1..])
  {
    forall k | k in Keys(rows) ensures k in {rows[0].0} + Keys(rows[1..]) {
      var i :| 0 <= i < |rows| && rows[i].0 == k;
      if i > 0 { assert rows[1..][i - 1] == rows[i]; }
    }
  }

  /** After the first row is handled, row i + 1 of the batch is new for the
      rest exactly when it was new for the whole batch. */
  lemma NewRowShift<K, V>(table: map<K, V>, rows: seq<(K, V)>, i: int)
    requires 0 < i < |rows|
    ensures var next := if rows[0].0 in table then table else table[rows[0].0 := rows[0].1];
      IsNewRow(next, rows[1..], i - 1) <==> IsNewRow(table, rows, i)
  {
    var next := if rows[0].0 in table then table else table[rows[0].0 := rows[0].1];
    if IsNewRow(next, rows[1..], i - 1) {
      forall j | 0 <= j < i ensures rows[j].0 != rows[i].0 {
        if j > 0 { assert rows[1..][j - 1] == rows[j]; }
      }
    }
    if IsNewRow(table, rows, i) {
      forall j | 0 <= j < i - 1 ensures rows[1..][j].0 != rows[1..][i - 1].0 {
        assert rows[1..][j] == rows[j + 1];
      }
    }
  }

  /** The statement fails exactly when some row it would store has no parent. */
  lemma {:induction false} InsertOrIgnoreFails<K, V>(table: map<K, V>, rows: seq<(K, V)>, parentOk: V -> bool)
    ensures InsertOrIgnore(table, rows, parentOk).None?
      <==> exists i :: 0 <= i < |rows| && IsNewRow(table, rows, i) && !parentOk(rows[i].1)
    decreases |rows|
  {
    if |rows| > 0 {
      var (k, v) := rows[0];
      var next := if k in table then table else table[k := v];
      assert IsNewRow(table, rows, 0) <==> k !in table;
      if k in table || parentOk(v) {
        InsertOrIgnoreFails(next, rows[1..], parentOk);
        forall i | 0 < i < |rows| { NewRowShift(table, rows, i); }
        if InsertOrIgnore(table, rows, parentOk).None? {
          var i :| 0 <= i < |rows[1..]| && IsNewRow(next, rows[1..], i) && !parentOk(rows[1..][i].1);
          assert IsNewRow(table, rows, i + 1) && !parentOk(rows[i + 1].1);
        }
      }
    }
  }

  /** Rows present before the statement keep their values. */
  lemma {:induction false} InsertOrIgnoreKeeps<K, V>(table: map<K, V>, rows: seq<(K, V)>, parentOk: V -> bool, key: K)
    requires InsertOrIgnore(table, rows, parentOk).Some? && key in table
    ensures InsertOrIgnore(table, rows, parentOk).value[key] == table[key]
    decreases |rows|
  {
    if |rows| > 0 {
      var (k, v) := rows[0];
      var next := if k in table then table else table[k := v];
      InsertOrIgnoreKeeps(next, rows[1..], parentOk, key);
    }
  }

  /** Each new key gets the values of the first row that carries it. */
  lemma {:induction false} InsertOrIgnoreFirstWins<K, V>(table: map<K, V>, rows: seq<(K, V)>, parentOk: V -> bool, i: int)
    requires InsertOrIgnore(table, rows, parentOk).Some?
    requires 0 <= i < |rows| && IsNewRow(table, rows, i)
    ensures InsertOrIgnore(table, rows, parentOk).value[rows[i].0] == rows[i].1
    decreases |rows|
  {
    var (k, v) := rows[0];
    var next := if k in table then table else table[k := v];
    if i == 0 {
      InsertOrIgnoreKeeps(next, rows[1..], parentOk, k);
    } else {
      NewRowShift(table, rows, i);
      assert rows[1..][i - 1] == rows[i];
      InsertOrIgnoreFirstWins(next, rows[1..], parentOk, i - 1);
    }
  }

  /** A stored row always satisfies `parentOk`: if every row of the table
      did before, every row does after. */
  lemma {:induction false} InsertOrIgnoreParents<K, V>(table: map<K, V>, rows: seq<(K, V)>, parentOk: V -> bool)
    requires InsertOrIgnore(table, rows, parentOk).Some?
    requires forall key | key in table :: parentOk(table[key])
    ensures var r := InsertOrIgnore(table, rows, parentOk).value;
      forall key | key in r :: parentOk(r[key])
    decreases |rows|
  {
    if |rows| > 0 {
      var (k, v) := rows[0];
      var next := if k in table then table else table[k := v];
      InsertOrIgnoreParents(next, rows[1..], parentOk);
    }
  }

  /** A relation between key and row that holds of every row of the table
      and of every row of the batch holds of every row of the result. */
  lemma {:induction false} InsertOrIgnoreAll<K, V>(table: map<K, V>, rows: seq<(K, V)>, parentOk: V -> bool, rel: (K, V) -> bool)
    requires InsertOrIgnore(table, rows, parentOk).Some?
    requires forall key | key in table :: rel(key, table[key])
    requires forall i | 0 <= i < |rows| :: rel(rows[i].0, rows[i].1)
    ensures var r := InsertOrIgnore(table, rows, parentOk).value;
      forall key | key in r :: rel(key, r[key])
    decreases |rows|
  {
    if |rows| > 0 {
      var (k, v) := rows[0];
      var next := if k in table then table else table[k := v];
      assert forall i | 0 < i < |rows| :: rows[1..][i - 1] == rows[i];
      InsertOrIgnoreAll(next, rows[1..], parentOk, rel);
    }
  }

  /** Inserting rows whose keys are all present already changes nothing,
      whatever their values: running a fill again after it succeeded is a
      no-op. */
  lemma {:induction false} InsertOrIgnorePresent<K, V>(table: map<K, V>, rows: seq<(K, V)>, parentOk: V -> bool)
    requires Keys(rows) <= table.Keys
    ensures InsertOrIgnore(table, rows, parentOk) == Some(table)
    decreases |rows|
  {
    if |rows| > 0 {
      KeysCons(rows);
      InsertOrIgnorePresent(table, rows[1..], parentOk);
    }
  }

  // ---------------------------------------------------------------------
  // fill_week_table

  /** Week has no foreign key: every row is accepted. */
  predicate AnyWeek(row: WeekRow) {
    true
  }

  /** Every generated week has valid dates, which ISO formatting needs. */
  predicate Storable(rs: seq<WeekRecord>) {
    forall i :: 0 <= i < |rs| ==> Valid(rs[i].start) && Valid(rs[i].end)
  }

  /** The generated weeks as `fill_week_table` stores them: the number, then
      both dates in ISO format. */
  function WeekTuples(rs: seq<WeekRecord>): (ts: seq<(string, WeekRow)>)
    requires Storable(rs)
    ensures |ts| == |rs|
    ensures forall i :: 0 <= i < |rs| ==> ts[i] == (rs[i].number, WeekRow(IsoFormat(rs[i].start), IsoFormat(rs[i].end)))
  {
    seq(|rs|, i requires 0 <= i < |rs| => (rs[i].number, WeekRow(IsoFormat(rs[i].start), IsoFormat(rs[i].end))))
  }

  /** `fill_week_table(start_year, end_year)`: the rows of
      `generate_week_data`, inserted or ignored. Week has no foreign key, so
      only the generator can fail, before anything is stored. */
  function FillWeekTable(db: Db, startYear: int, endYear: int): (r: Result<Db, DbError>)
    ensures r.Success? <==> 1 <= startYear <= MaxYear && endYear <= MaxYear
    ensures r.Failure? ==> r.error == DateFailure(if 1 <= startYear <= MaxYear then OverflowError else ValueError)
    ensures r.Success? ==> r.value.locations == db.locations && r.value.workDays == db.workDays
  {
    match GenerateWeekData(startYear, endYear)
    case Failure(e) => Failure(DateFailure(e))
    case Success(rs) =>
      WeeksAreValid(rs, Week1Monday(startYear), endYear);
      var ts := WeekTuples(rs);
      InsertOrIgnoreFails(db.weeks, ts, AnyWeek);
      Success(db.(weeks := InsertOrIgnore(db.weeks, ts, AnyWeek).value))
  }

  lemma WeeksAreValid(rs: seq<WeekRecord>, o: int, endYear: int)
    requires WeeksFromDay(rs, o, endYear)
    ensures Storable(rs)
  {
    forall i | 0 <= i < |rs| ensures Valid(rs[i].start) && Valid(rs[i].end) {
      assert InRun(rs[i], o + 7 * i, endYear);
    }
  }

  /** A successful fill, unfolded once. */
  lemma FillWeekTableIs(db: Db, startYear: int, endYear: int)
    requires FillWeekTable(db, startYear, endYear).Success?
    ensures GenerateWeekData(startYear, endYear).Success?
    ensures var rs := GenerateWeekData(startYear, endYear).value;
      && Storable(rs)
      && InsertOrIgnore(db.weeks, WeekTuples(rs), AnyWeek).Some?
      && FillWeekTable(db, startYear, endYear).value
         == db.(weeks := InsertOrIgnore(db.weeks, WeekTuples(rs), AnyWeek).value)
  {
    Generated(startYear, endYear);
    var rs := GenerateWeekData(startYear, endYear).value;
    WeeksAreValid(rs, Week1Monday(startYear), endYear);
    InsertOrIgnoreFails(db.weeks, WeekTuples(rs), AnyWeek);
  }

  /** The week numbers of generated weeks. */
  function WeekNumbers(rs: seq<WeekRecord>): set<string> {
    set i | 0 <= i < |rs| :: rs[i].number
  }

  /** A successful `fill_week_table` keeps the Week rows it found and adds
      one row for every generated week number, and nothing else. */
  lemma FillWeekTableRows(db: Db, startYear: int, endYear: int)
    requires FillWeekTable(db, startYear, endYear).Success?
    ensures var weeks := FillWeekTable(db, startYear, endYear).value.weeks;
      && weeks.Keys == db.weeks.Keys + WeekNumbers(GenerateWeekData(startYear, endYear).value)
      && (forall n | n in db.weeks :: weeks[n] == db.weeks[n])
  {
    FillWeekTableIs(db, startYear, endYear);
    var rs := GenerateWeekData(startYear, endYear).value;
    hide FillWeekTable, GenerateWeekData;
    var ts := WeekTuples(rs);
    WeekTupleKeys(rs);
    forall n | n in db.weeks ensures InsertOrIgnore(db.weeks, ts, AnyWeek).value[n] == db.weeks[n] {
      InsertOrIgnoreKeeps(db.weeks, ts, AnyWeek, n);
    }
  }

  lemma WeekTupleKeys(rs: seq<WeekRecord>)
    requires Storable(rs)
    ensures Keys(WeekTuples(rs)) == WeekNumbers(rs)
  {
    var ts := WeekTuples(rs);
    forall n | n in Keys(ts) ensures n in WeekNumbers(rs) {
      var i :| 0 <= i < |ts| && ts[i].0 == n;
      assert rs[i].number == n;
    }
    forall n | n in WeekNumbers(rs) ensures n in Keys(ts) {
      var i :| 0 <= i < |rs| && rs[i].number == n;
      assert ts[i].0 == n;
    }
  }

  /** The generated week numbers are distinct, so a week whose number was
      not stored yet is stored with its own start and end date in ISO
      format. */
  lemma FillWeekTableNewWeek(db: Db, startYear: int, endYear: int, i: int)
    requires MinYear <= startYear <= MaxYear && endYear <= MaxYear
    requires var rs := GenerateWeekData(startYear, endYear).value;
      0 <= i < |rs| && rs[i].number !in db.weeks
    ensures var rs := GenerateWeekData(startYear, endYear).value;
      && Valid(rs[i].start) && Valid(rs[i].end)
      && rs[i].number in FillWeekTable(db, startYear, endYear).value.weeks
      && FillWeekTable(db, startYear, endYear).value.weeks[rs[i].number]
         == WeekRow(IsoFormat(rs[i].start), IsoFormat(rs[i].end))
  {
    FillWeekTableIs(db, startYear, endYear);
    WeekNumbersDistinct(startYear, endYear);
    var rs := GenerateWeekData(startYear, endYear).value;
    var ts := WeekTuples(rs);
    hide FillWeekTable, GenerateWeekData, WeekTuples, IsoFormat;
    forall j | 0 <= j < i ensures ts[j].0 != ts[i].0 {
      assert rs[j].number != rs[i].number;
    }
    assert IsNewRow(db.weeks, ts, i) && ts[i].0 in Keys(ts);
    InsertOrIgnoreFirstWins(db.weeks, ts, AnyWeek, i);
  }

  /** Running `fill_week_table` again with the same years changes nothing. */
  lemma FillWeekTableIdempotent(db: Db, startYear: int, endYear: int)
    requires FillWeekTable(db, startYear, endYear).Success?
    ensures var once := FillWeekTable(db, startYear, endYear).value;
      FillWeekTable(once, startYear, endYear) == Success(once)
  {
    FillWeekTableIs(db, startYear, endYear);
    var once := FillWeekTable(db, startYear, endYear).value;
    FillWeekTableIs(once, startYear, endYear);
    var rs := GenerateWeekData(startYear, endYear).value;
    hide FillWeekTable, GenerateWeekData;
    InsertOrIgnorePresent(once.weeks, WeekTuples(rs), AnyWeek);
  }

  /** Adding Week rows never breaks a foreign key. */
  lemma FillWeekTableKeepsForeignKeys(db: Db, startYear: int, endYear: int)
    requires ForeignKeysHold(db) && FillWeekTable(db, startYear, endYear).Success?
    ensures ForeignKeysHold(FillWeekTable(db, startYear, endYear).value)
  {
    FillWeekTableRows(db, startYear, endYear);
  }

  // ---------------------------------------------------------------------
  // fill_location_table

  /** The two locations `fill_location_table` inserts. */
  const Office := "office"
  const Remote := "remote"

  /** `fill_location_table`: INSERT OR IGNORE of 'office' and 'remote' into
      the one-column Location table, which is a set union; no foreign key
      points out of Location, so it cannot fail. */
  function FillLocationTable(db: Db): (r: Db)
    ensures Office in r.locations && Remote in r.locations
    ensures forall l | l in r.locations :: l in db.locations || l == Office || l == Remote
    ensures db.locations <= r.locations && r.weeks == db.weeks && r.workDays == db.workDays
  {
    db.(locations := db.locations + {Office, Remote})
  }

  /** Running `fill_location_table` again changes nothing, and it keeps the
      foreign keys. */
  lemma FillLocationTableIdempotent(db: Db)
    ensures FillLocationTable(FillLocationTable(db)) == FillLocationTable(db)
    ensures ForeignKeysHold(db) ==> ForeignKeysHold(FillLocationTable(db))
  {
    var once := FillLocationTable(db);
    assert once.locations + {Office, Remote} == once.locations;
  }

  // ---------------------------------------------------------------------
  // fill_workday_table

  /** A row of Data/location.csv with its Year, Month and Day columns
      already converted by `int`. */
  datatype CsvRow = CsvRow(year: int, month: int, day: int, location: string)

  /** The `(work_date, week_number, location)` tuple of a valid date: the
      date in ISO format and its ISO week number. */
  function WorkDayTuple(d: Date, location: string): (string, WorkDayRow)
    requires Valid(d)
  {
    (IsoFormat(d), WorkDayRow(WeekIdOf(d), location))
  }

  /** The date a CSV row names. */
  function DateOf(row: CsvRow): Date {
    Date(row.year, row.month, row.day)
  }

  /** The list `fill_workday_table` builds before it opens the database:
      `date(year, month, day)` raises on the first row that is not a date,
      and then nothing is inserted. */
  function WorkDayTuples(rows: seq<CsvRow>): (r: Result<seq<(string, WorkDayRow)>, DateError>)
    ensures r.Failure? ==> exists i | 0 <= i < |rows| :: MakeDate(rows[i].year, rows[i].month, rows[i].day) == Failure(r.error)
    ensures r.Success? ==> |r.value| == |rows|
    decreases |rows|
  {
    if |rows| == 0 then Success([])
    else
      var d :- MakeDate(rows[0].year, rows[0].month, rows[0].day);
      var rest :- WorkDayTuples(rows[1..]);
      Success([WorkDayTuple(d, rows[0].location)] + rest)
  }

  /** The list is built exactly when every row is a date, and then holds
      each row's tuple in file order; otherwise the exception is the one
      `date` raises on the first row that is not a date. */
  lemma {:induction false} WorkDayTuplesSpec(rows: seq<CsvRow>)
    ensures var r := WorkDayTuples(rows);
      && (r.Success? <==> forall i | 0 <= i < |rows| :: Valid(DateOf(rows[i])))
      && (r.Success? ==> forall i | 0 <= i < |rows| ::
            Valid(DateOf(rows[i])) && r.value[i] == WorkDayTuple(DateOf(rows[i]), rows[i].location))
      && (r.Failure? ==> FirstBadRow(rows, r.error))
    decreases |rows|
  {
    hide WorkDayTuple;
    if |rows| > 0 {
      WorkDayTuplesSpec(rows[1..]);
      assert forall i | 0 < i < |rows| :: rows[1..][i - 1] == rows[i];
      var r := WorkDayTuples(rows);
      if r.Failure? && Valid(DateOf(rows[0])) {
        var i :| 0 <= i < |rows[1..]| && IsFirstBad(rows[1..], i, r.error);
        assert IsFirstBad(rows, i + 1, r.error);
      } else if r.Failure? {
        assert IsFirstBad(rows, 0, r.error);
      }
    }
  }

  /** Row `i` is the first CSV row that is not a date, and `date` raises
      `e` on it. */
  predicate IsFirstBad(rows: seq<CsvRow>, i: int, e: DateError)
    requires 0 <= i < |rows|
  {
    && (forall j | 0 <= j < i :: Valid(DateOf(rows[j])))
    && MakeDate(rows[i].year, rows[i].month, rows[i].day) == Failure(e)
  }

  predicate FirstBadRow(rows: seq<CsvRow>, e: DateError) {
    exists i | 0 <= i < |rows| :: IsFirstBad(rows, i, e)
  }

  /** The foreign-key test of a WorkDay row against `db`. */
  function ParentsIn(db: Db): WorkDayRow -> bool {
    row => HasParents(db, row)
  }

  /** `fill_workday_table`: the tuples inserted or ignored in file order. A
      new row whose week number or location has no parent row raises
      IntegrityError, and the database keeps none of the batch. */
  function FillWorkDayTable(db: Db, rows: seq<CsvRow>): (r: Result<Db, DbError>)
    ensures r.Success? ==> r.value.weeks == db.weeks && r.value.locations == db.locations
  {
    match WorkDayTuples(rows)
    case Failure(e) => Failure(DateFailure(e))
    case Success(ts) =>
      match InsertOrIgnore(db.workDays, ts, ParentsIn(db))
      case None => Failure(IntegrityError)
      case Some(workDays) => Success(db.(workDays := workDays))
  }

  /** `fill_workday_table` fails with a date error exactly when some row is
      not a date, the error `date` raises on the first such row; and
      otherwise with IntegrityError exactly when some row it would store
      (the first with its date, not stored before) has a week number or
      location without a parent row. */
  lemma FillWorkDayTableFails(db: Db, rows: seq<CsvRow>)
    ensures var r := FillWorkDayTable(db, rows);
      && (r.Failure? && r.error.DateFailure?
          <==> exists i | 0 <= i < |rows| :: !Valid(DateOf(rows[i])))
      && (r.Failure? && r.error.DateFailure? ==> FirstBadRow(rows, r.error.cause))
      && (r == Failure(IntegrityError)
          <==> && WorkDayTuples(rows).Success?
               && exists i | 0 <= i < |rows| :: IsNewRow(db.workDays, WorkDayTuples(rows).value, i)
                    && !HasParents(db, WorkDayTuples(rows).value[i].1))
  {
    WorkDayTuplesSpec(rows);
    if WorkDayTuples(rows).Success? {
      InsertOrIgnoreFails(db.workDays, WorkDayTuples(rows).value, ParentsIn(db));
    }
  }

  /** A successful `fill_workday_table` keeps every WorkDay row it found,
      and the foreign keys. */
  lemma FillWorkDayTableKeeps(db: Db, rows: seq<CsvRow>)
    requires FillWorkDayTable(db, rows).Success?
    ensures var r := FillWorkDayTable(db, rows).value;
      && (forall d | d in db.workDays :: d in r.workDays && r.workDays[d] == db.workDays[d])
      && (ForeignKeysHold(db) ==> ForeignKeysHold(r))
  {
    var ts := WorkDayTuples(rows).value;
    forall d | d in db.workDays ensures FillWorkDayTable(db, rows).value.workDays[d] == db.workDays[d] {
      InsertOrIgnoreKeeps(db.workDays, ts, ParentsIn(db), d);
    }
    if ForeignKeysHold(db) {
      InsertOrIgnoreParents(db.workDays, ts, ParentsIn(db));
    }
  }

  /** Each date the file adds is stored with its week number and the
      location of its first row in the file. */
  lemma FillWorkDayTableNewRow(db: Db, rows: seq<CsvRow>, i: int)
    requires FillWorkDayTable(db, rows).Success? && 0 <= i < |rows|
    requires IsNewRow(db.workDays, WorkDayTuples(rows).value, i)
    ensures Valid(DateOf(rows[i]))
    ensures var key := IsoFormat(DateOf(rows[i]));
      var r := FillWorkDayTable(db, rows).value;
      key in r.workDays && r.workDays[key] == WorkDayRow(WeekIdOf(DateOf(rows[i])), rows[i].location)
  {
    WorkDayTuplesSpec(rows);
    var ts := WorkDayTuples(rows).value;
    assert ts[i].0 in Keys(ts);
    InsertOrIgnoreFirstWins(db.workDays, ts, ParentsIn(db), i);
  }

  /** Running `fill_workday_table` again on the same file changes nothing. */
  lemma FillWorkDayTableIdempotent(db: Db, rows: seq<CsvRow>)
    requires FillWorkDayTable(db, rows).Success?
    ensures var once := FillWorkDayTable(db, rows).value;
      FillWorkDayTable(once, rows) == Success(once)
  {
    var once := FillWorkDayTable(db, rows).value;
    InsertOrIgnorePresent(once.workDays, WorkDayTuples(rows).value, ParentsIn(once));
  }
}

=== FILE: text.dfy ===
/** String helpers used by the model: SQLite's TEXT ordering, Python's
    decimal formatting of integers and `str.join` / `str.split`. */
module Text {

  /** Strict lexicographic order on strings. SQLite compares TEXT under its
      default BINARY collation, byte by byte over UTF-8, which orders strings
      exactly as their code points do. */
  predicate LexLess(a: string, b: string)
  {
    if |a| == 0 then |b| > 0
    else if |b| == 0 then false
    else if a[0] < b[0] then true
    else a[0] == b[0] && LexLess(a[1..], b[1..])
  }

  lemma {:induction false} LexLessIrreflexive(a: string)
    ensures !LexLess(a, a)
  {
    if |a| > 0 {
      LexLessIrreflexive(a[1..]);
    }
  }

  lemma {:induction false} LexLessTransitive(a: string, b: string, c: string)
    requires LexLess(a, b) && LexLess(b, c)
    ensures LexLess(a, c)
  {
    if |a| > 0 && a[0] == b[0] && b[0] == c[0] {
      LexLessTransitive(a[1..], b[1..], c[1..]);
    }
  }

  lemma {:induction false} LexLessTrichotomy(a: string, b: string)
    ensures LexLess(a, b) || a == b || LexLess(b, a)
  {
    if |a| > 0 && |b| > 0 && a[0] == b[0] {
      LexLessTrichotomy(a[1..], b[1..]);
      if a[1..] == b[1..] {
        assert a == [a[0]] + a[1..] && b == [b[0]] + b[1..];
      }
    }
  }

  lemma LexLessAsymmetric(a: string, b: string)
    requires LexLess(a, b)
    ensures !LexLess(b, a)
  {
    if LexLess(b, a) {
      LexLessTransitive(a, b, a);
      LexLessIrreflexive(a);
    }
  }

  /** Comparing two concatenations whose first parts have the same length
      compares the first parts, and the second parts only on a tie. */
  lemma {:induction false} LexLessConcat(a1: string, b1: string, a2: string, b2: string)
    requires |a1| == |a2|
    ensures LexLess(a1 + b1, a2 + b2) <==> LexLess(a1, a2) || (a1 == a2 && LexLess(b1, b2))
  {
    if |a1| == 0 {
      assert a1 + b1 == b1 && a2 + b2 == b2;
    } else {
      assert (a1 + b1)[0] == a1[0] && (a2 + b2)[0] == a2[0];
      assert (a1 + b1)[1..] == a1[1..] + b1;
      assert (a2 + b2)[1..] == a2[1..] + b2;
      LexLessConcat(a1[1..], b1, a2[1..], b2);
      if a1[0] == a2[0] && a1[1..] == a2[1..] {
        assert a1 == [a1[0]] + a1[1..] && a2 == [a2[0]] + a2[1..];
      }
    }
  }

  /** Two fields joined by "-", the first of a fixed width, compare field
      by field. */
  lemma LexLessDashedPair(a1: string, a2: string, b1: string, b2: string)
    requires |a1| == |b1|
    ensures LexLess(a1 + "-" + a2, b1 + "-" + b2) <==> LexLess(a1, b1) || (a1 == b1 && LexLess(a2, b2))
    ensures a1 + "-" + a2 == b1 + "-" + b2 <==> a1 == b1 && a2 == b2
  {
    var ta, tb := "-" + a2, "-" + b2;
    assert a1 + "-" + a2 == a1 + ta && b1 + "-" + b2 == b1 + tb;
    LexLessConcat(a1, ta, b1, tb);
    LexLessConcat("-", a2, "-", b2);
    LexLessIrreflexive("-");
    if a1 + ta == b1 + tb {
      assert a1 == (a1 + ta)[..|a1|] && b1 == (b1 + tb)[..|b1|];
      assert ta == (a1 + ta)[|a1|..] && tb == (b1 + tb)[|b1|..];
      assert a2 == ta[1..] && b2 == tb[1..];
    }
  }

  /** Two fields joined by "-", the second of a fixed width, are equal only
      when both fields are. */
  lemma DashedFixedSuffix(a1: string, a2: string, b1: string, b2: string)
    requires |a2| == |b2|
    ensures a1 + "-" + a2 == b1 + "-" + b2 <==> a1 == b1 && a2 == b2
  {
    var s, t := a1 + "-" + a2, b1 + "-" + b2;
    if s == t {
      assert a1 == s[..|a1|] && b1 == t[..|b1|];
      assert a2 == s[|a1| + 1..] && b2 == t[|b1| + 1..];
    }
  }

  /** Three fields joined by "-", the first two of fixed widths, compare
      field by field. */
  lemma LexLessDashed(a1: string, a2: string, a3: string, b1: string, b2: string, b3: string)
    requires |a1| == |b1| && |a2| == |b2|
    ensures LexLess(a1 + "-" + a2 + "-" + a3, b1 + "-" + b2 + "-" + b3)
        <==> LexLess(a1, b1) || (a1 == b1 && (LexLess(a2, b2) || (a2 == b2 && LexLess(a3, b3))))
    ensures a1 + "-" + a2 + "-" + a3 == b1 + "-" + b2 + "-" + b3 <==> a1 == b1 && a2 == b2 && a3 == b3
  {
    LexLessDashedPair(a1 + "-" + a2, a3, b1 + "-" + b2, b3);
    LexLessDashedPair(a1, a2, b1, b2);
  }

  /** The decimal digit character for 0 <= n < 10. */
  function Digit(n: int): (c: char)
    requires 0 <= n < 10
    ensures '0' <= c <= '9'
  {
    (48 + n) as char
  }

  predicate IsDigit(c: char) {
    '0' <= c <= '9'
  }

  function Pow10(k: nat): (p: nat)
    ensures p >= 1
  {
    if k == 0 then 1 else 10 * Pow10(k - 1)
  }

  /** The low `width` decimal digits of `n`, most significant first and
      zero-filled on the left: C's `%0<width>d` for `n < 10^width`. */
  function PadDigits(n: nat, width: nat): (s: string)
    ensures |s| == width
    ensures forall i :: 0 <= i < |s| ==> IsDigit(s[i])
  {
    if width == 0 then [] else PadDigits(n / 10, width - 1) + [Digit(n % 10)]
  }

  /** Python's `str(n)` for a non-negative integer: decimal digits with no
      leading zero. */
  function NatToString(n: nat): (s: string)
    ensures |s| >= 1
    ensures forall i :: 0 <= i < |s| ==> IsDigit(s[i])
    ensures s[0] == '0' ==> n == 0
  {
    if n < 10 then [Digit(n)] else NatToString(n / 10) + [Digit(n % 10)]
  }

  /** `str` tells numbers apart: distinct numbers render differently. */
  lemma {:induction false} NatToStringInjective(x: nat, y: nat)
    ensures NatToString(x) == NatToString(y) <==> x == y
  {
    var s, t := NatToString(x), NatToString(y);
    if s == t {
      if x >= 10 && y >= 10 {
        assert NatToString(x / 10) == s[..|s| - 1] && NatToString(y / 10) == t[..|t| - 1];
        NatToStringInjective(x / 10, y / 10);
        assert Digit(x % 10) == s[|s| - 1] && Digit(y % 10) == t[|t| - 1];
      } else if x < 10 && y < 10 {
        assert Digit(x) == s[0] && Digit(y) == t[0];
      }
    }
  }

  /** For a number of exactly `width` digits, `str(n)` is its zero-padded
      rendering, so both formatting routes agree. */
  lemma {:induction false} NatToStringIsPadDigits(n: nat, width: nat)
    requires 1 <= width && (width == 1 || Pow10(width - 1) <= n) && n < Pow10(width)
    ensures NatToString(n) == PadDigits(n, width)
  {
    if width == 1 {
      assert PadDigits(n / 10, 0) == [];
    } else {
      NatToStringIsPadDigits(n / 10, width - 1);
    }
  }

  /** Zero-filled digits compare, as strings, exactly as the numbers do. */
  lemma {:induction false} PadDigitsOrder(x: nat, y: nat, width: nat)
    requires x < Pow10(width) && y < Pow10(width)
    ensures LexLess(PadDigits(x, width), PadDigits(y, width)) <==> x < y
    ensures PadDigits(x, width) == PadDigits(y, width) <==> x == y
  {
    if width > 0 {
      var a, b := PadDigits(x / 10, width - 1), PadDigits(y / 10, width - 1);
      PadDigitsOrder(x / 10, y / 10, width - 1);
      LexLessConcat(a, [Digit(x % 10)], b, [Digit(y % 10)]);
      if PadDigits(x, width) == PadDigits(y, width) {
        assert a == PadDigits(x, width)[..width - 1];
        assert b == PadDigits(y, width)[..width - 1];
        assert Digit(x % 10) == PadDigits(x, width)[width - 1];
        assert Digit(y % 10) == PadDigits(y, width)[width - 1];
      }
    }
  }

  /** Python's `f"{s:>0<width>}"` on a string: right-align `s`, filling on
      the left with '0'; a string already that wide is left as it is. */
  function ZeroFill(s: string, width: nat): (r: string)
    ensures |r| == if |s| >= width then |s| else width
    ensures r[|r| - |s|..] == s
    ensures forall i :: 0 <= i < |r| - |s| ==> r[i] == '0'
    decreases width - |s|
  {
    if |s| >= width then s
    else
      var r := ZeroFill("0" + s, width);
      assert r[|r| - |s|..] == (r[|r| - |s| - 1..])[1..];
      r
  }

  /** `"str".join(parts)` with a one-character separator. */
  function Join(sep: char, parts: seq<string>): (s: string)
  {
    if |parts| == 0 then ""
    else if |parts| == 1 then parts[0]
    else parts[0] + [sep] + Join(sep, parts[1..])
  }

  /** `s.split(sep)` with a one-character separator: the pieces between
      separators, so "" splits into [""]. */
  function Split(s: string, sep: char): (parts: seq<string>)
    ensures |parts| >= 1
  {
    if |s| == 0 then [""]
    else if s[0] == sep then [""] + Split(s[1..], sep)
    else
      var rest := Split(s[1..], sep);
      [[s[0]] + rest[0]] + rest[1..]
  }

  lemma {:induction false} SplitNoSep(a: string, sep: char)
    requires sep !in a
    ensures Split(a, sep) == [a]
  {
    if |a| > 0 {
      SplitNoSep(a[1..], sep);
      assert [a[0]] + a[1..] == a;
    }
  }

  lemma {:induction false} SplitAtFirstSep(a: string, b: string, sep: char)
    requires sep !in a
    ensures Split(a + [sep] + b, sep) == [a] + Split(b, sep)
  {
    var s := a + [sep] + b;
    if |a| == 0 {
      assert s[0] == sep && s[1..] == b;
    } else {
      assert s[0] == a[0] && s[1..] == a[1..] + [sep] + b;
      SplitAtFirstSep(a[1..], b, sep);
      assert [a[0]] + a[1..] == a;
    }
  }

  /** Splitting a join on its separator gives back the parts, provided no
      part contains the separator. */
  lemma {:induction false} SplitJoin(parts: seq<string>, sep: char)
    requires |parts| >= 1
    requires forall i :: 0 <= i < |parts| ==> sep !in parts[i]
    ensures Split(Join(sep, parts), sep) == parts
  {
    if |parts| == 1 {
      SplitNoSep(parts[0], sep);
    } else {
      SplitJoin(parts[1..], sep);
      SplitAtFirstSep(parts[0], Join(sep, parts[1..]), sep);
      assert [parts[0]] + parts[1..] == parts;
    }
  }
}

=== FILE: weeks.dfy ===
/** The Week rows `generate_week_data` produces: one record per ISO week,
    from week 1 of `start_year` up to, but not including, ISO year
    `end_year`, each numbered "YYYY-WW" from the ISO week date of its
    Monday. */
module WeekData {
  import opened Wrappers
  import opened Text
  import opened Calendar

  /** A generated `(week_number, week_start, week_end)` tuple, with the two
      dates still as dates (they are formatted when stored). */
  datatype WeekRecord = WeekRecord(number: string, start: Date, end: Date)

  /** `f"{iso_year}-{iso_week:>02}"` with both parts rendered by `str`: the
      year is not padded, the week is zero-filled to two characters. */
  function WeekId(isoYear: nat, isoWeek: nat): string {
    NatToString(isoYear) + "-" + ZeroFill(NatToString(isoWeek), 2)
  }

  /** The week number of a date, as both `generate_week_data` and
      `fill_workday_table` derive it. */
  function WeekIdOf(d: Date): string
    requires Valid(d)
  {
    var c := IsoCalendar(d);
    WeekId(c.year, c.week)
  }

  /** The week part `f"{iso_week:>02}"` is the two-digit rendering. */
  lemma WeekPartFormat(isoWeek: nat)
    requires 1 <= isoWeek <= 99
    ensures ZeroFill(NatToString(isoWeek), 2) == PadDigits(isoWeek, 2)
  {
    assert Pow10(1) == 10 && Pow10(2) == 100;
    if isoWeek < 10 {
      NatToStringIsPadDigits(isoWeek, 1);
      assert ZeroFill(NatToString(isoWeek), 2) == "0" + NatToString(isoWeek);
      assert PadDigits(isoWeek, 2) == PadDigits(0, 1) + [Digit(isoWeek)];
    } else {
      NatToStringIsPadDigits(isoWeek, 2);
    }
  }

  /** For a four-digit year the week number is exactly "YYYY-WW". */
  lemma WeekIdFormat(isoYear: nat, isoWeek: nat)
    requires 1000 <= isoYear <= 9999 && 1 <= isoWeek <= 53
    ensures WeekId(isoYear, isoWeek) == PadDigits(isoYear, 4) + "-" + PadDigits(isoWeek, 2)
    ensures |WeekId(isoYear, isoWeek)| == 7
  {
    assert Pow10(3) == 1000 && Pow10(4) == 10000;
    NatToStringIsPadDigits(isoYear, 4);
    WeekPartFormat(isoWeek);
  }

  /** With four-digit years, week numbers sort as strings in calendar
      order, and distinct weeks get distinct numbers. */
  lemma WeekIdOrder(y1: nat, w1: nat, y2: nat, w2: nat)
    requires 1000 <= y1 <= 9999 && 1 <= w1 <= 53
    requires 1000 <= y2 <= 9999 && 1 <= w2 <= 53
    ensures LexLess(WeekId(y1, w1), WeekId(y2, w2)) <==> y1 < y2 || (y1 == y2 && w1 < w2)
    ensures WeekId(y1, w1) == WeekId(y2, w2) <==> y1 == y2 && w1 == w2
  {
    WeekIdFormat(y1, w1);
    WeekIdFormat(y2, w2);
    PadDigitsOrder(y1, y2, 4);
    PadDigitsOrder(w1, w2, 2);
    LexLessDashedPair(PadDigits(y1, 4), PadDigits(w1, 2), PadDigits(y2, 4), PadDigits(w2, 2));
  }

  /** In every year, distinct weeks get distinct numbers: the week part
      after the dash has a fixed width, so the year part can be read back. */
  lemma WeekIdInjective(y1: nat, w1: nat, y2: nat, w2: nat)
    requires 1 <= w1 <= 53 && 1 <= w2 <= 53
    ensures WeekId(y1, w1) == WeekId(y2, w2) <==> y1 == y2 && w1 == w2
  {
    WeekPartFormat(w1);
    WeekPartFormat(w2);
    assert Pow10(2) == 100;
    hide ZeroFill, NatToString, PadDigits;
    DashedFixedSuffix(NatToString(y1), PadDigits(w1, 2), NatToString(y2), PadDigits(w2, 2));
    NatToStringInjective(y1, y2);
    PadDigitsOrder(w1, w2, 2);
  }

  /** Why the order needs four-digit years: `str(999)` is not padded, so
      the last week of 999 sorts after the first week of 1000. */
  lemma ShortYearSortsLate()
    ensures LexLess(WeekId(1000, 1), WeekId(999, 52))
  {
    assert NatToString(1) == "1" && NatToString(10) == "10";
    assert NatToString(100) == NatToString(10) + "0";
    assert NatToString(1000) == NatToString(100) + "0";
    assert NatToString(99) == NatToString(9) + "9";
    assert NatToString(999) == NatToString(99) + "9";
    assert WeekId(1000, 1)[0] == NatToString(1000)[0] == '1';
    assert WeekId(999, 52)[0] == NatToString(999)[0] == '9';
  }

  predicate IsMonday(d: Date)
    requires 1 <= d.month <= 12
  {
    Weekday(d) == 0
  }

  /** A record is the week whose Monday is day `o`: it ends six days later
      and carries the week number of its Monday. */
  predicate IsWeekAt(r: WeekRecord, o: int) {
    && Valid(r.start) && Valid(r.end)
    && Ordinal(r.start) == o
    && IsoCalendar(r.start).weekday == 1
    && Ordinal(r.end) == o + 6
    && r.number == WeekIdOf(r.start)
  }

  /** Week `r` starts on day `o` and lies in an ISO year before `endYear`. */
  predicate InRun(r: WeekRecord, o: int, endYear: int) {
    IsWeekAt(r, o) && IsoCalendar(r.start).year < endYear
  }

  /** `rs` are the consecutive weeks from the Monday `o` on, all in ISO
      years before `endYear`. */
  predicate WeeksFromDay(rs: seq<WeekRecord>, o: int, endYear: int) {
    forall k :: 0 <= k < |rs| ==> InRun(rs[k], o + 7 * k, endYear)
  }

  lemma ConsWeek(week: WeekRecord, rest: seq<WeekRecord>, o: int, endYear: int)
    requires InRun(week, o, endYear)
    requires WeeksFromDay(rest, o + 7, endYear)
    ensures WeeksFromDay([week] + rest, o, endYear)
  {
    hide InRun;
    var rs := [week] + rest;
    forall k | 0 <= k < |rs|
      ensures InRun(rs[k], o + 7 * k, endYear)
    {
      if k > 0 {
        assert rs[k] == rest[k - 1] && o + 7 * k == (o + 7) + 7 * (k - 1);
      }
    }
  }

  /** The loop of `generate_week_data` from `cursor` on: emit the cursor's
      week while its ISO year is below `endYear`, then step seven days.
      `date + timedelta` past 9999-12-31 raises OverflowError. */
  function WeeksFrom(cursor: Date, endYear: int): (r: Result<seq<WeekRecord>, DateError>)
    requires Valid(cursor)
    ensures r.Failure? ==> r.error == OverflowError
    decreases MaxOrdinal - Ordinal(cursor)
  {
    ValidOrdinalRange(cursor);
    if IsoCalendar(cursor).year >= endYear then Success([])
    else
      match AddDays(cursor, 6)
      case None => Failure(OverflowError)
      case Some(weekEnd) =>
        match AddDays(cursor, 7)
        case None => Failure(OverflowError)
        case Some(next) =>
          var rest :- WeeksFrom(next, endYear);
          Success([WeekRecord(WeekIdOf(cursor), cursor, weekEnd)] + rest)
  }

  /** From a Monday, the loop fails exactly when `endYear` is past 9999;
      otherwise it yields the consecutive weeks up to week 1 of
      `endYear`. */
  lemma {:induction false} WeeksFromSpec(cursor: Date, endYear: int)
    requires Valid(cursor) && IsMonday(cursor)
    ensures var r := WeeksFrom(cursor, endYear);
      && (r.Success? <==> endYear <= MaxYear)
      && (r.Success? ==> Ordinal(cursor) + 7 * |r.value| == (if IsoCalendar(cursor).year >= endYear then Ordinal(cursor) else Week1Monday(endYear)))
      && (r.Success? ==> WeeksFromDay(r.value, Ordinal(cursor), endYear))
    decreases MaxOrdinal - Ordinal(cursor)
  {
    hide WeeksFrom, InRun, WeekIdOf, IsoCalendar, Ordinal, Week1Monday, AddDays;
    var c := IsoCalendar(cursor);
    ValidOrdinalRange(cursor);
    IsoYearOrder(Ordinal(cursor), c.year, endYear);
    if c.year >= endYear {
      WeeksFromStop(cursor, endYear);
    } else {
      EndYearLimit(cursor, endYear);
      IsoWeekdayMatchesWeekday(cursor);
      if Ordinal(cursor) + 7 <= MaxOrdinal {
        WeeksFromStep(cursor, endYear);
        var next := AddDays(cursor, 7).value;
        NextMonday(cursor, next, endYear);
        WeeksFromSpec(next, endYear);
        var rest := WeeksFrom(next, endYear);
        if rest.Success? {
          WeekOfCursor(cursor, endYear);
          var week := WeekRecord(WeekIdOf(cursor), cursor, AddDays(cursor, 6).value);
          ConsWeek(week, rest.value, Ordinal(cursor), endYear);
        }
      } else {
        WeeksFromOverflow(cursor, endYear);
      }
    }
  }

  /** The loop stops at once when the cursor has reached ISO year `endYear`. */
  lemma WeeksFromStop(cursor: Date, endYear: int)
    requires Valid(cursor) && IsoCalendar(cursor).year >= endYear
    ensures WeeksFrom(cursor, endYear) == Success([])
  {
  }

  /** The week the loop emits for a Monday cursor. */
  lemma WeekOfCursor(cursor: Date, endYear: int)
    requires Valid(cursor) && IsoCalendar(cursor).weekday == 1
    requires IsoCalendar(cursor).year < endYear && Ordinal(cursor) + 6 <= MaxOrdinal
    ensures InRun(WeekRecord(WeekIdOf(cursor), cursor, AddDays(cursor, 6).value), Ordinal(cursor), endYear)
  {
  }

  /** One turn of the loop: the cursor's week, then the weeks from seven
      days on, or the failure that came from there. */
  lemma WeeksFromStep(cursor: Date, endYear: int)
    requires Valid(cursor) && IsoCalendar(cursor).year < endYear
    requires Ordinal(cursor) + 7 <= MaxOrdinal
    ensures var rest := WeeksFrom(AddDays(cursor, 7).value, endYear);
      var week := WeekRecord(WeekIdOf(cursor), cursor, AddDays(cursor, 6).value);
      WeeksFrom(cursor, endYear) == if rest.Success? then Success([week] + rest.value) else rest
  {
  }

  /** A cursor in the last week Python can hold fails when the loop has to
      step past it. */
  lemma WeeksFromOverflow(cursor: Date, endYear: int)
    requires Valid(cursor) && IsoCalendar(cursor).year < endYear
    requires Ordinal(cursor) + 7 > MaxOrdinal
    ensures WeeksFrom(cursor, endYear).Failure?
  {
  }

  lemma MondayArithmetic(c: int, n: int, w: int)
    requires (c + 6) % 7 == 0 && (w + 6) % 7 == 0
    requires n == c + 7 && c < w
    ensures (n + 6) % 7 == 0
    ensures w <= n ==> w == n
  {
    assert n + 6 == (c + 6) + 7;
    assert w - c == 7 * ((w + 6) / 7 - (c + 6) / 7);
  }

  /** Before ISO year `endYear` the next Monday is still a date Python can
      hold exactly when `endYear` is at most 9999. */
  lemma EndYearLimit(cursor: Date, endYear: int)
    requires Valid(cursor) && IsMonday(cursor)
    requires Ordinal(cursor) < Week1Monday(endYear)
    ensures endYear <= MaxYear ==> Ordinal(cursor) + 7 <= Week1Monday(endYear) <= MaxOrdinal - 6
  {
    if endYear <= MaxYear {
      Week1MondayMonotone(endYear, MaxYear + 1);
      LastWeek1Monday();
      MondayArithmetic(Ordinal(cursor), Ordinal(cursor) + 7, Week1Monday(endYear));
    }
  }

  /** Seven days after a Monday is a Monday, and if the ISO year has then
      reached `endYear` the step has landed on week 1 of `endYear`. */
  lemma NextMonday(cursor: Date, next: Date, endYear: int)
    requires Valid(cursor) && IsMonday(cursor) && Valid(next)
    requires Ordinal(next) == Ordinal(cursor) + 7
    requires Ordinal(cursor) < Week1Monday(endYear)
    ensures IsMonday(next)
    ensures IsoCalendar(next).year >= endYear ==> Ordinal(next) == Week1Monday(endYear)
  {
    NextIsMonday(cursor, next);
    NextMondayYear(cursor, next, endYear);
  }

  lemma NextIsMonday(cursor: Date, next: Date)
    requires Valid(cursor) && IsMonday(cursor) && Valid(next)
    requires Ordinal(next) == Ordinal(cursor) + 7
    ensures IsMonday(next)
  {
    hide Ordinal;
    var c, n := Ordinal(cursor), Ordinal(next);
    assert Weekday(cursor) == (c + 6) % 7 == 0;
    assert Weekday(next) == (n + 6) % 7 == ((c + 6) + 7) % 7;
  }

  lemma NextMondayYear(cursor: Date, next: Date, endYear: int)
    requires Valid(cursor) && IsMonday(cursor) && Valid(next)
    requires Ordinal(next) == Ordinal(cursor) + 7
    requires Ordinal(cursor) < Week1Monday(endYear)
    ensures IsoCalendar(next).year >= endYear ==> Ordinal(next) == Week1Monday(endYear)
  {
    var c, n, w := Ordinal(cursor), Ordinal(next), Week1Monday(endYear);
    assert (c + 6) % 7 == 0;
    MondayArithmetic(c, n, w);
    IsoYearOrder(n, IsoCalendar(next).year, endYear);
  }

  /** `generate_week_data(start_year, end_year)`: ValueError unless
      `start_year` is a year Python can hold, OverflowError when the weeks
      would run past 9999-12-31, otherwise every ISO week of the years
      `start_year .. end_year - 1`. */
  function GenerateWeekData(startYear: int, endYear: int): (r: Result<seq<WeekRecord>, DateError>)
    ensures r.Success? <==> MinYear <= startYear <= MaxYear && endYear <= MaxYear
    ensures r.Failure? ==> (r.error == ValueError <==> !(MinYear <= startYear <= MaxYear))
    ensures r.Success? ==> WeeksFromDay(r.value, Week1Monday(startYear), endYear)
  {
    var start :- FirstIsoMonday(startYear);
    FirstIsoMondayRoundTrip(startYear);
    IsoWeekdayMatchesWeekday(start);
    WeeksFromSpec(start, endYear);
    WeeksFrom(start, endYear)
  }
}

/** What `generate_week_data` promises about the weeks it returns. */
module WeekDataProperties {
  import opened Wrappers
  import opened Text
  import opened Calendar
  import opened WeekData

  /** The shape of a successful result, in one place: the weeks from the
      Monday of ISO week 1 of `start_year` up to week 1 of `end_year`. */
  lemma Generated(startYear: int, endYear: int)
    requires MinYear <= startYear <= MaxYear && endYear <= MaxYear
    ensures var r := GenerateWeekData(startYear, endYear);
      && r.Success?
      && Week1Monday(startYear) + 7 * |r.value| == (if startYear >= endYear then Week1Monday(startYear) else Week1Monday(endYear))
      && WeeksFromDay(r.value, Week1Monday(startYear), endYear)
  {
    GeneratedFrom(startYear, endYear);
    WeeksFromSpec(FirstIsoMonday(startYear).value, endYear);
  }

  lemma GeneratedFrom(startYear: int, endYear: int)
    requires MinYear <= startYear <= MaxYear
    ensures var start := FirstIsoMonday(startYear).value;
      && Valid(start) && IsMonday(start) && IsoCalendar(start).year == startYear
      && GenerateWeekData(startYear, endYear) == WeeksFrom(start, endYear)
  {
    FirstIsoMondayRoundTrip(startYear);
    IsoWeekdayMatchesWeekday(FirstIsoMonday(startYear).value);
  }

  /** When `start_year >= end_year` the cursor already starts in ISO year
      `start_year`, so the loop guard fails at once and the list is empty. */
  lemma EmptyUnlessStartBeforeEnd(startYear: int, endYear: int)
    requires MinYear <= startYear <= MaxYear && endYear <= startYear
    ensures GenerateWeekData(startYear, endYear) == Success([])
  {
    Generated(startYear, endYear);
  }

  /** The first week starts on the Monday of ISO week 1 of `start_year`
      (possibly in December of the year before) and is numbered
      "{start_year}-01". */
  lemma FirstWeek(startYear: int, endYear: int)
    requires MinYear <= startYear < endYear <= MaxYear
    ensures var r := GenerateWeekData(startYear, endYear);
      && r.Success? && |r.value| > 0
      && r.value[0].start == FirstIsoMonday(startYear).value
      && r.value[0].number == NatToString(startYear) + "-01"
  {
    Generated(startYear, endYear);
    Week1MondayMonotone(startYear, endYear);
    var rs := GenerateWeekData(startYear, endYear).value;
    var start := FirstIsoMonday(startYear).value;
    assert IsWeekAt(rs[0], Week1Monday(startYear) + 7 * 0);
    OrdinalOrder(rs[0].start, start);
    FirstIsoMondayRoundTrip(startYear);
    FirstWeekNumber(startYear);
  }

  lemma FirstWeekNumber(startYear: nat)
    ensures WeekId(startYear, 1) == NatToString(startYear) + "-01"
  {
    assert NatToString(1) == "1";
    assert ZeroFill("1", 2) == "01";
  }

  /** The weeks run without gap or overlap: each one ends six days after it
      starts, and the next one starts the day after. */
  lemma WeeksContiguous(startYear: int, endYear: int)
    requires GenerateWeekData(startYear, endYear).Success?
    ensures var rs := GenerateWeekData(startYear, endYear).value;
      && (forall k :: 0 <= k < |rs| ==> Ordinal(rs[k].end) == Ordinal(rs[k].start) + 6)
      && (forall k :: 0 <= k < |rs| - 1 ==> Ordinal(rs[k + 1].start) == Ordinal(rs[k].end) + 1)
  {
    var rs := GenerateWeekData(startYear, endYear).value;
    assert WeeksFromDay(rs, Week1Monday(startYear), endYear);
    forall k | 0 <= k < |rs| - 1
      ensures Ordinal(rs[k + 1].start) == Ordinal(rs[k].end) + 1
    {
      assert IsWeekAt(rs[k], Week1Monday(startYear) + 7 * k);
      assert IsWeekAt(rs[k + 1], Week1Monday(startYear) + 7 * (k + 1));
    }
  }

  /** The weeks span exactly from week 1 of `start_year` to the day before
      week 1 of `end_year`. */
  lemma WeeksSpan(startYear: int, endYear: int)
    requires MinYear <= startYear < endYear <= MaxYear
    ensures var rs := GenerateWeekData(startYear, endYear).value;
      && |rs| == (Week1Monday(endYear) - Week1Monday(startYear)) / 7
      && |rs| > 0 && Ordinal(rs[|rs| - 1].end) + 1 == Week1Monday(endYear)
  {
    Generated(startYear, endYear);
    Week1MondayMonotone(startYear, endYear);
    hide GenerateWeekData, IsoCalendar, WeekIdOf, Week1Monday, Ordinal;
    var rs := GenerateWeekData(startYear, endYear).value;
    var n, s, e := |rs|, Week1Monday(startYear), Week1Monday(endYear);
    assert e - s == 7 * n && n > 0;
    assert InRun(rs[n - 1], s + 7 * (n - 1), endYear);
  }

  /** Every week lies in an ISO year from `start_year` up to, but not
      including, `end_year`. */
  lemma WeeksInIsoYears(startYear: int, endYear: int)
    requires MinYear <= startYear <= MaxYear && endYear <= MaxYear
    ensures var rs := GenerateWeekData(startYear, endYear).value;
      forall k :: 0 <= k < |rs| ==> startYear <= IsoCalendar(rs[k].start).year < endYear
  {
    Generated(startYear, endYear);
    var rs := GenerateWeekData(startYear, endYear).value;
    forall k | 0 <= k < |rs|
      ensures startYear <= IsoCalendar(rs[k].start).year < endYear
    {
      assert IsWeekAt(rs[k], Week1Monday(startYear) + 7 * k);
      var o, y := Ordinal(rs[k].start), IsoCalendar(rs[k].start).year;
      assert InIsoYear(o, y);
      IsoYearOrder(o, y, startYear);
    }
  }

  /** Of two Mondays, the later one has the later (year, week) pair. */
  lemma MondayWeekDatesIncrease(o1: int, r1: IsoDate, o2: int, r2: IsoDate)
    requires IsWeekDateOf(o1, r1) && IsWeekDateOf(o2, r2)
    requires r1.weekday == 1 && r2.weekday == 1 && o1 < o2
    ensures r1.year < r2.year || (r1.year == r2.year && r1.week < r2.week)
  {
    if r2.year < r1.year {
      Week1MondayMonotone(r2.year + 1, r1.year);
    }
  }

  /** Of two generated weeks in four-digit ISO years, the later one has the
      larger number. */
  lemma LaterWeekLargerNumber(r1: WeekRecord, o1: int, r2: WeekRecord, o2: int)
    requires IsWeekAt(r1, o1) && IsWeekAt(r2, o2) && o1 < o2
    requires 1000 <= IsoCalendar(r1.start).year && 1000 <= IsoCalendar(r2.start).year
    ensures LexLess(r1.number, r2.number) && r1.number != r2.number
  {
    var a, b := IsoCalendar(r1.start), IsoCalendar(r2.start);
    assert a.year < b.year || (a.year == b.year && a.week < b.week) by {
      MondayWeekDatesIncrease(o1, a, o2, b);
    }
    var n1, n2 := WeekId(a.year, a.week), WeekId(b.year, b.week);
    assert LexLess(n1, n2) && n1 != n2 by {
      WeekIdOrder(a.year, a.week, b.year, b.week);
    }
    assert r1.number == n1 && r2.number == n2;
  }

  /** Of two generated weeks, the later one has another number, in every
      year. */
  lemma LaterWeekOtherNumber(r1: WeekRecord, o1: int, r2: WeekRecord, o2: int)
    requires IsWeekAt(r1, o1) && IsWeekAt(r2, o2) && o1 < o2
    ensures r1.number != r2.number
  {
    var a, b := IsoCalendar(r1.start), IsoCalendar(r2.start);
    MondayWeekDatesIncrease(o1, a, o2, b);
    WeekIdInjective(a.year, a.week, b.year, b.week);
  }

  /** Whatever the years, no two generated weeks share a number. */
  lemma WeekNumbersDistinct(startYear: int, endYear: int)
    requires MinYear <= startYear <= MaxYear && endYear <= MaxYear
    ensures var rs := GenerateWeekData(startYear, endYear).value;
      forall i, j :: 0 <= i < j < |rs| ==> rs[i].number != rs[j].number
  {
    Generated(startYear, endYear);
    var rs := GenerateWeekData(startYear, endYear).value;
    var s := Week1Monday(startYear);
    forall i, j | 0 <= i < j < |rs| ensures rs[i].number != rs[j].number {
      assert InRun(rs[i], s + 7 * i, endYear) && InRun(rs[j], s + 7 * j, endYear);
      LaterWeekOtherNumber(rs[i], s + 7 * i, rs[j], s + 7 * j);
    }
  }

  /** With four-digit years, the week numbers strictly increase as strings,
      so they are also pairwise distinct. */
  lemma WeekNumbersIncrease(startYear: int, endYear: int)
    requires 1000 <= startYear <= MaxYear && endYear <= MaxYear
    ensures var rs := GenerateWeekData(startYear, endYear).value;
      forall i, j :: 0 <= i < j < |rs| ==> LexLess(rs[i].number, rs[j].number) && rs[i].number != rs[j].number
  {
    Generated(startYear, endYear);
    WeeksInIsoYears(startYear, endYear);
    var rs := GenerateWeekData(startYear, endYear).value;
    forall i, j | 0 <= i < j < |rs|
      ensures LexLess(rs[i].number, rs[j].number) && rs[i].number != rs[j].number
    {
      RunNumbersIncrease(rs, Week1Monday(startYear), endYear, i, j);
    }
  }

  lemma RunNumbersIncrease(rs: seq<WeekRecord>, s: int, endYear: int, i: int, j: int)
    requires WeeksFromDay(rs, s, endYear) && 0 <= i < j < |rs|
    requires 1000 <= IsoCalendar(rs[i].start).year && 1000 <= IsoCalendar(rs[j].start).year
    ensures LexLess(rs[i].number, rs[j].number) && rs[i].number != rs[j].number
  {
    assert InRun(rs[i], s + 7 * i, endYear) && InRun(rs[j], s + 7 * j, endYear);
    LaterWeekLargerNumber(rs[i], s + 7 * i, rs[j], s + 7 * j);
  }

  lemma SameWeekArithmetic(o: int, m: int, s: int, w: int, wd: int)
    requires (m + 6) % 7 == 0 && (s + 6) % 7 == 0 && s <= m
    requires o == m + 7 * (w - 1) + (wd - 1) && 1 <= wd <= 7
    ensures s + 7 * ((o - s) / 7) == m + 7 * (w - 1)
  {
    MondaysWeeksApart(s, m);
    assert o - s == 7 * ((m - s) / 7 + w - 1) + (wd - 1);
  }

  /** Counting whole weeks from a Monday `s` of an earlier-or-equal ISO
      year lands on the Monday of the day's own week. */
  lemma MondayOfDay(o: int, c: IsoDate, startYear: int)
    requires IsWeekDateOf(o, c) && startYear <= c.year
    ensures var s := Week1Monday(startYear);
      var m := s + 7 * ((o - s) / 7);
      && IsWeekDateOf(m, IsoDate(c.year, c.week, 1))
      && m <= o <= m + 6
  {
    var s := Week1Monday(startYear);
    Week1MondayMonotone(startYear, c.year);
    SameWeekArithmetic(o, Week1Monday(c.year), s, c.week, c.weekday);
  }

  /** A day of an ISO year in [startYear, endYear) lies between the first
      Mondays of those two years. */
  lemma DayBetweenYears(o: int, c: IsoDate, startYear: int, endYear: int)
    requires IsWeekDateOf(o, c) && startYear <= c.year < endYear
    ensures Week1Monday(startYear) <= o < Week1Monday(endYear)
  {
    Week1MondayMonotone(startYear, c.year);
    Week1MondayMonotone(c.year + 1, endYear);
  }

  lemma GeneratedSpan(startYear: int, endYear: int, rs: seq<WeekRecord>)
    requires MinYear <= startYear < endYear <= MaxYear
    requires GenerateWeekData(startYear, endYear) == Success(rs)
    ensures Week1Monday(startYear) + 7 * |rs| == Week1Monday(endYear)
    ensures WeeksFromDay(rs, Week1Monday(startYear), endYear)
  {
    Generated(startYear, endYear);
  }

  /** The ordinal core of `ContainingWeek`: the day `o` with week date `c`
      falls in generated week number `(o - s) / 7`. */
  lemma ContainingWeekAt(startYear: int, endYear: int, rs: seq<WeekRecord>, o: int, c: IsoDate)
    requires MinYear <= startYear <= MaxYear && endYear <= MaxYear
    requires GenerateWeekData(startYear, endYear) == Success(rs)
    requires IsWeekDateOf(o, c) && startYear <= c.year < endYear
    ensures var k := (o - Week1Monday(startYear)) / 7;
      && 0 <= k < |rs|
      && IsWeekAt(rs[k], Week1Monday(startYear) + 7 * k)
      && Ordinal(rs[k].start) <= o <= Ordinal(rs[k].end)
      && IsoCalendar(rs[k].start).year == c.year
      && IsoCalendar(rs[k].start).week == c.week
  {
    DayBetweenYears(o, c, startYear, endYear);
    GeneratedSpan(startYear, endYear, rs);
    MondayOfDay(o, c, startYear);
    var k := (o - Week1Monday(startYear)) / 7;
    WeekDateUnique(Week1Monday(startYear) + 7 * k, IsoCalendar(rs[k].start), IsoDate(c.year, c.week, 1));
  }

  /** The week `r` holds day `d` and carries its week number. */
  predicate WeekHolds(r: WeekRecord, d: Date) {
    && Valid(r.start) && Valid(r.end) && Valid(d)
    && Ordinal(r.start) <= Ordinal(d) <= Ordinal(r.end)
    && r.number == WeekIdOf(d)
  }

  /** A work day's week number, derived as `fill_workday_table` does, is
      the number of the generated week whose [week_start, week_end] holds
      the day: both places apply the same derivation. */
  lemma ContainingWeek(startYear: int, endYear: int, rs: seq<WeekRecord>, d: Date)
    requires GenerateWeekData(startYear, endYear) == Success(rs)
    requires Valid(d) && startYear <= IsoCalendar(d).year < endYear
    ensures var k := (Ordinal(d) - Week1Monday(startYear)) / 7;
      0 <= k < |rs| && WeekHolds(rs[k], d)
  {
    var o, c := Ordinal(d), IsoCalendar(d);
    ContainingWeekAt(startYear, endYear, rs, o, c);
    var k := (o - Week1Monday(startYear)) / 7;
    WeekHoldsDay(rs[k], d, o, c);
    assert WeekHolds(rs[k], d);
    assert k == (Ordinal(d) - Week1Monday(startYear)) / 7;
  }

  lemma WeekHoldsDay(r: WeekRecord, d: Date, o: int, c: IsoDate)
    requires Valid(r.start) && Valid(r.end) && Valid(d)
    requires o == Ordinal(d) && c == IsoCalendar(d)
    requires Ordinal(r.start) <= o <= Ordinal(r.end) && r.number == WeekIdOf(r.start)
    requires IsoCalendar(r.start).year == c.year && IsoCalendar(r.start).week == c.week
    ensures WeekHolds(r, d)
  {
  }

}

=== FILE: wrappers.dfy ===
/** Failure-compatible result types shared by the model: `Option` for the
    source's `None` returns and `Result` for its raised exceptions. */
module Wrappers {

  /** A value that may be absent, as a Python `None` return. */
  datatype Option<+T> = None | Some(value: T)

  /** Either a value or the exception the source would have raised. */
  datatype Result<+T, +E> = Success(value: T) | Failure(error: E) {

    predicate IsFailure() {
      Failure?
    }

    function PropagateFailure<U>(): Result<U, E>
      requires Failure?
    {
      Failure(error)
    }

    function Extract(): T
      requires Success?
    {
      value
    }
  }
}
